=== FILE: README.md ===
# node-readability core, modelled in Dafny

This project models the orchestration core of `src/readability.js`. That
code turns either a URL or raw markup into a readable article. The model
covers these pieces:

- **Content-Type parsing** (`_parseContentType`).
- **Page charset scan** (`_findHTMLCharset`). Its three regular
  expressions are written out as leftmost-match scanners.
- **Fetch path of `read`**:
  - the scheme dispatch, which chooses between fetching the target and
    parsing it as markup;
  - the precedence of the charset sources;
  - the `utf-?8` conversion gate;
  - the optional preprocess hook;
  - the empty-body rejection that comes before document construction.
- **Title heuristic** (`_findMetaTitle` and `getTitle`).
- **The `Readability` object**:
  - its per-instance artifact cache, and the body snapshot taken by the
    constructor;
  - `getContent`, with its relaxed retry on the restored body;
  - `getTextBody` and its child-text join;
  - `close`.

Modules, one file each:

- `Wrappers` (`wrappers.dfy`): `Option`, `Result`, and JavaScript
  truthiness of a string (`""` is falsy).
- `Strings` (`strings.dfy`): `trim` over the ECMAScript whitespace set,
  ASCII `toLowerCase`, `indexOf`, `split` on one character, substring
  search, and the UTF-16 `length`.
- `ContentType` (`content_type.dfy`): the header parser.
- `HtmlCharset` (`html_charset.dfy`): the page scan, over the text
  `buffer.toString('ascii')` gives. That decoding clears the high bit of
  each byte.
- `Fetch` (`fetch.dfy`): the body of `read` up to document construction.
  The network request, the charset converter and UTF-8 decoding are
  function-valued parameters (`Transport`). The result records the URL
  requested and the charset the converter was asked to convert from; after
  a fetch the body is always decoded, so decoding is not recorded.
- `Title` (`title.dfy`): the title heuristic, as a pure function of the
  meta tags and the document title.
- `TextJoin` (`text_body.dfy`): the `getTextBody` loop. It is given both as
  a method with a loop invariant and as a recursive definition, and a
  lemma describes the shape of its result.
- `Orchestrator` (`orchestrator.dfy`): the object as an immutable record:
  - the window flag and the document;
  - the body snapshot and the cache;
  - a log of every `grabArticle` call with its arguments;
  - a count of `window.close()` calls.

  `prepDocument`, `grabArticle`, `getInnerText` and the DOM accessors are
  function-valued fields of `Dom`.

Where the code and what it appears meant to do differ, the model follows the code:

- **Title refinement.** The `return` on line 96 leaves only the `forEach`
  callback. A title that two separators split is therefore still refined
  by the first separator, in list order, whose trimmed prefix is non-empty,
  not restored to the original.
  `Title.ExampleSecondSeparatorIgnored` exhibits this.
- **Text body.** A newline follows every non-empty child text except the
  last child's. When the last child's text is empty, the body ends in
  `"\n"` (`TextJoin.ExampleTexts`).
- **Close.** `close` does not clear the cache. Values computed before
  `close` stay readable afterwards, and only uncached reads fail
  (`Orchestrator.ReadAfterClose`).
- **Charset parameter.** In `_parseContentType`, an empty `charset=` value
  falls back to UTF-8. A value of only whitespace yields the empty
  charset, which `read` then replaces by `utf-8`.

## Model

| member | source | states |
|---|---|---|
| Strings.Trim | src/readability.js:216-217 | `trim`: the result has no whitespace at either end and is an infix of the input whose two margins are entirely whitespace |
| Strings.TrimTrailingBlank | src/readability.js:97 | trimming a trimmed, non-empty text followed by one blank gives the text back |
| Strings.NormalizeIsNormal | src/readability.js:216-217 | `.trim().toLowerCase()` always yields a label that is trimmed and is its own lower case |
| Strings.Split | src/readability.js:200 | `split` on one character: at least one piece, no piece contains the separator, the pieces glued with it give the input back, and there is more than one piece exactly when the separator occurs |
| Strings.SplitJoinWith | src/readability.js:200 | splitting undoes joining when no piece holds the separator |
| Strings.SplitFirstPiece | src/readability.js:200-201 | the first piece of a split is the text before the first occurrence |
| Strings.FindFrom | src/readability.js:94 | substring search returns the leftmost occurrence at or after the start, and none exactly when there is no occurrence |
| Strings.FirstOccurrence | src/readability.js:94 | an occurrence is the leftmost when one of the pattern's characters does not appear earlier |
| Strings.Utf16Length | src/readability.js:101 | the JavaScript `length` of one character is one code unit inside the Basic Multilingual Plane and two outside it, and text inside that plane has one unit per character |
| Strings.Utf16Append | src/readability.js:101 | the JavaScript `length` of a concatenation is the sum of the lengths, which with the one-character case fixes the length of every text |
| ContentType.ParseContentType | src/readability.js:195-218 | an absent or empty header gives neither field; any other gives both, as `MimeType` and `HeaderCharset` of the header |
| ContentType.MimeType | src/readability.js:200-201 | the mime type is the trimmed, lower-cased text before the first `;` (the whole header when there is none) and is normalised |
| ContentType.ParamCharset | src/readability.js:206-211 | a parameter without `=` is ignored; otherwise it names a charset exactly when the key before its first `=`, trimmed and lower-cased, is `charset`, and the value is the text from that `=` up to the next `=` or the end |
| ContentType.LastCharset | src/readability.js:205-213 | the parameter loop keeps the value of the last charset parameter, and nothing when there is none |
| ContentType.HeaderCharset | src/readability.js:205-217 | the charset is the last charset value, normalised, or `utf-8` when no parameter names one |
| ContentType.Normalized | src/readability.js:217 | the result is a normalised label: `utf-8` for the empty value, the value itself when it is already normal, and the empty label for a value of whitespace only |
| ContentType.NormalizedInvariant | src/readability.js:217 | for a non-empty value, surrounding whitespace and letter case do not change the normalised label |
| ContentType.ParseFormatted | src/readability.js:195-218 | a header written as `m; charset=c` parses back to `m` and `c`, each trimmed and lower-cased (`utf-8` when `c` is empty) |
| HtmlCharset.AsciiDecode | src/readability.js:172 | `toString('ascii')` keeps the length and maps every byte to a character below 128 |
| HtmlCharset.Leftmost | src/readability.js:177 | a regular-expression search reports the leftmost position where the pattern matches, and no match only when it matches nowhere |
| HtmlCharset.HttpEquivTagAt | src/readability.js:177 | the tag pattern matches at a position exactly when `<meta`, whitespace, `http-equiv=`, a quote, `content-type` and a quote follow in any letter case with a `>` somewhere after them; the match then ends at the first such `>` |
| HtmlCharset.FirstHttpEquivTag | src/readability.js:177-179 | the tag used is the leftmost match; when there is none, no position matches |
| HtmlCharset.CharsetTokenAt | src/readability.js:182 | the token pattern matches exactly where `charset` is followed by `=`, with at most one whitespace character between; the capture skips one whitespace character after the `=` if there is one and is then the longest run of letters, digits and hyphens |
| HtmlCharset.FirstCharsetToken | src/readability.js:182 | the capture comes from the leftmost `charset=` match inside the tag |
| HtmlCharset.TagCharset | src/readability.js:177-186 | the tag's contribution is nothing without a tag or a token; otherwise it is the leftmost token in the leftmost tag, lower-cased |
| HtmlCharset.MetaCharsetAt | src/readability.js:188 | the pattern matches exactly when `<meta`, whitespace, `charset=` and a quote follow in any letter case and a quote of either kind comes before any line break; the capture is the text between that opening quote and the first closing one |
| HtmlCharset.MetaCharset | src/readability.js:188 | the capture comes from the leftmost `<meta charset>` match, and is absent only when nothing matches |
| HtmlCharset.FindHtmlCharset | src/readability.js:171-193 | a non-empty http-equiv token wins; `<meta charset>` is consulted only when it yields nothing or an empty token; results are normalised; the result is undefined only when neither matches |
| HtmlCharset.ExampleMetaCharset | src/readability.js:188-190 | `<meta charset="UTF-8">` declares `utf-8` |
| HtmlCharset.ExampleHttpEquiv | src/readability.js:177-185 | `<meta http-equiv="Content-Type" content="text/html; charset=ISO-8859-1">` declares `iso-8859-1` |
| Fetch.Protocol | src/readability.js:233 | the protocol exists exactly when, past leading URL whitespace, a non-empty run of scheme characters is followed by `:`, and it is then that run lower-cased with the colon |
| Fetch.IsRemote | src/readability.js:235 | the target is fetched exactly when, past leading URL whitespace, it starts with http, https, unix, ftp or sftp in any letter case followed by `:` |
| Fetch.RemoteTarget | src/readability.js:233-235 | `scheme:rest` whose scheme, in any letter case, is http, https, unix, ftp or sftp is fetched |
| Fetch.MarkupIsLiteral | src/readability.js:233-236 | text whose first character past URL whitespace is not a scheme character, markup included, has no protocol and is parsed directly |
| Fetch.ControlPrefixSkipped | src/readability.js:233-235 | a target that begins with a control character (here a vertical tab) before `http:` still has the protocol `http:` and is fetched, not parsed as markup |
| Fetch.ResolveContentType | src/readability.js:243-249 | the resolved content type keeps the parsed mime type, and its charset is always present and normalised |
| Fetch.CharsetPrecedence | src/readability.js:243-249 | the override wins, then the page's declaration (for `text/html` only), then the header charset, then `utf-8` |
| Fetch.MetaOnlyForHtml | src/readability.js:245-247 | for any mime type other than `text/html` the body cannot change the resolved content type |
| Fetch.MatchesUtf8 | src/readability.js:251 | the gate's `/^utf-?8$/i` matches exactly the labels whose lower case is `utf-8` or `utf8` |
| Fetch.Deliver | src/readability.js:273-274 | an empty body is rejected with an error, and any other body is passed on unchanged |
| Fetch.Read | src/readability.js:233-241 | the request is issued exactly for remote protocols, for the target itself; other input is delivered as markup with no conversion; conversion happens only after a successful fetch, only for a non-UTF-8 charset and from the resolved charset; transport errors are reported with their cause; a response is handled as `Fetch.Receive` states; delivered markup is never empty |
| Fetch.Receive | src/readability.js:243-264 | for a response, the converter is called exactly when the resolved charset is not UTF-8, and from that charset; the body, converted if so and then decoded, is handed off as `Fetch.Handoff` states, together with the resolved content type; delivered markup is never empty |
| Fetch.Handoff | src/readability.js:257-264 | with no hook the decoded text is delivered with the response's final URL; with a hook, the hook's error ends the read and its text is delivered in its place |
| Fetch.ConversionExactlyWhenNotUtf8 | src/readability.js:249-253 | after a fetch, the converter is called exactly when the resolved charset is neither `utf-8` nor `utf8`, and from that charset |
| Title.FindMetaTitle | src/readability.js:157-169 | the result is the `content` of the first tag whose property is `og:title` or whose name is `twitter:title`, and null when there is no such tag |
| Title.Candidate | src/readability.js:88 | a truthy meta title is the candidate; otherwise the document title is |
| Title.Proposal | src/readability.js:94-97 | a separator proposes something exactly when it occurs in the title, and the proposal is the text before its first occurrence, trimmed |
| Title.Refine | src/readability.js:93-99 | the loop ends with the starting value or some separator's proposal |
| Title.RefineKeepsBetter | src/readability.js:93-99 | once a truthy refined title is held, no later separator changes it |
| Title.RefineFirst | src/readability.js:93-99 | the loop ends with the proposal of the first separator, in list order, whose proposal is non-empty |
| Title.RefineNoProposal | src/readability.js:93-99 | with no non-empty proposal the refined title stays falsy |
| Title.ChooseTitle | src/readability.js:88-105 | the chosen title is the candidate, or a separator's proposal longer than ten code units |
| Title.TitleRule | src/readability.js:88-105 | the first non-empty proposal decides: it is taken when longer than ten code units, else the candidate stands; with none, the candidate stands |
| Title.PipeSuffix | src/readability.js:90-105 | a title made of `a`, the pipe separator and `b`, where `a` is trimmed, non-empty and has no pipe, is cut to `a` exactly when `a` is longer than ten code units |
| Title.Guillemets | src/readability.js:90-105 | in `« p »` the empty `«` prefix is passed over and the `»` separator yields `« p` |
| Title.ExampleSiteSuffixDropped | src/readability.js:90-102 | "Great Article", the pipe separator and "My Site" become "Great Article" |
| Title.ExampleShortPrefixKept | src/readability.js:101-105 | "A", the pipe separator and "B" stay as they are: the prefix "A" is too short |
| Title.ExampleSecondSeparatorIgnored | src/readability.js:93-102 | "Some Long Headline - Site", the pipe separator and "Brand" contain two separators and still become "Some Long Headline - Site" |
| Title.ExampleEmptyPrefixReplaced | src/readability.js:93-102 | "« Real Headline Here »" becomes "« Real Headline Here" |
| TextJoin.TextBody | src/readability.js:118-136 | the text body is empty exactly when every child text is empty |
| TextJoin.JoinChildTexts | src/readability.js:118-136 | the loop computes the text-body join |
| TextJoin.TextBodyShape | src/readability.js:120-136 | the text body is the non-empty child texts joined by single newlines, plus one newline when the last child's text is empty and some text is not |
| TextJoin.ExampleTexts | src/readability.js:122-135 | ["A", "", "B"] gives "A\nB"; ["A", ""] gives "A\n" |
| Orchestrator.Create | src/readability.js:15-29 | a new object has its window and the prepared document, an empty artifact cache, no `grabArticle` calls, and a snapshot of the prepared document's body |
| Orchestrator.Close | src/readability.js:52-58 | `close` drops the window and the document, calls `window.close()` exactly when a window is present, and leaves the cache and snapshot alone |
| Orchestrator.GetContent | src/readability.js:60-78 | a cached value is returned with no calls made; with no document the read throws; otherwise one plain `grabArticle` call on the live document, a relaxed one on the snapshot-restored body exactly when the first found no text, and `false` cached exactly when the last attempt found no text |
| Orchestrator.GetTitle | src/readability.js:80-106 | a cached title is returned unchanged; otherwise the title is the candidate or one of its separator proposals, and it is cached |
| Orchestrator.ChildTexts | src/readability.js:116-124 | there is no root element exactly when the article has no children; otherwise text `i` is `getInnerText` of child `i` of the root, called with one argument |
| Orchestrator.GetTextBody | src/readability.js:108-139 | a fresh text body makes one more `grabArticle` call even when the content is cached, caches the join of the root's child texts (`""` with no root), and changes nothing else: the window, the snapshot and the close count stay |
| Orchestrator.CloseIdempotent | src/readability.js:52-58 | closing twice is the same as closing once, and `window.close()` is called at most once |
| Orchestrator.ContentReadOnce | src/readability.js:64-66 | after content is computed, reading it again returns the same value and changes nothing |
| Orchestrator.TitleReadOnce | src/readability.js:84-86 | after the title is computed, reading it again returns the same value and changes nothing |
| Orchestrator.ContentFallback | src/readability.js:68-77 | the content is `false` exactly when both attempts find no text; otherwise it is the markup of the first attempt that found text |
| Orchestrator.ReadAfterClose | src/readability.js:52-58 | after `close`, cached values are still returned and uncached reads throw |
| Orchestrator.TextBodyGrabsAgain | src/readability.js:112-116 | `getTextBody` never reads the content cache: with content cached it still calls `grabArticle` once |
| Orchestrator.CacheWriteOnce | src/readability.js:64-138 | over any sequence of operations, no cached value is removed or changed, and the snapshot stays |
| Orchestrator.WindowClosedOnce | src/readability.js:52-58 | after the window is closed, no sequence of operations calls `window.close()` again |

## Left out

- jsdom document construction and the `request` HTTP call are foreign I/O. The request is a function parameter, and `read` stops at the markup it would hand to jsdom.
- The jsdom `done` callback (error and missing-body handling, `new Readability`, `window.close` on failure) runs inside jsdom and is not modelled.
- `encodinglib.convert` and `buffer.toString()` are function parameters. The model states when the converter is called and with which charset, not what it computes.
- The `preprocess` hook is a function from text, response and content type to text or an error. Its callback plumbing, and the swap of `options` and `callback` at the top of `read`, are not modelled.
- `read` also edits the caller's `options` object: it sets `options.encoding` to null and deletes `options.preprocess` (lines 230-231), so that `request` returns raw bytes. The model takes `Options` as an immutable value and does not model this change, which the caller could observe afterwards.
- `url.parse` is not part of this model. `Fetch.Protocol` follows the protocol rule of the `url.parse` in current Node releases (Node 22): skip every leading code unit up to and including the space (U+0000 to U+0020), U+00A0 and U+FEFF, then take a leading run of `[a-z0-9.+-]` followed by `:`, lower-cased. The skipped set has changed between Node releases. Node 6 and earlier skipped the `trim` set, which takes in the other Unicode spaces but not the control characters U+0000 to U+0008 and U+000E to U+001F. Node 7 to 17 skipped only space, tab, CR, LF, form feed, U+00A0 and U+FEFF. Under those releases, input that begins with a character outside their set has no protocol where this model finds one, or the reverse.
- Fetch.Read: `url.parse` also parses the host, and it can throw for a malformed one: an empty host, or a host holding a forbidden character such as the NUL in `http://[\0]/`. `read` would then throw synchronously at line 233 and never issue the request. The model does not parse the host, so for such a target it still reports the request. The rest of the URL (path, query) plays no part in `read`.
- The `helpers` module (`prepDocument`, `grabArticle`, `getInnerText`, `setCleanRules`, `debug`) is not part of this model. Those functions are the uninterpreted fields of `Dom`.
- A read that needs the document after `close` is modelled as throwing. That is certain for `getTitle`. For `getContent` and `getTextBody` it assumes `grabArticle` fails on a null document.
- The `unfluff` extractor and the `Object.assign` merge of its fields into the object are untyped foreign output.
- `getHTML`, `getDocument` and the `__defineGetter__` wiring are direct passthroughs to the live DOM.
- `iframeLoads`, `bodyCache` and `_articleContent` are set by the constructor and never read.
- Deprecation warnings, `exports.debug` and `module.exports.read` only have console side effects.
- Strings.Lower: lower-cases ASCII letters only, while JavaScript's `toLowerCase` covers all of Unicode. For the page scan this is exact, because ASCII decoding leaves no character above 127. For header values, override labels and the `charset` key, non-ASCII letters are left as they are.
- Orchestrator.GetTitle: states that the cached title is the candidate or one of its proposals. The exact choice is stated by `Title.TitleRule`, which `GetTitle` applies to the candidate.

=== FILE: content_type.dfy ===
/** The Content-Type header parser (`_parseContentType`). */
module ContentType {
  import opened Wrappers
  import opened Strings

  /** The object the parser returns: both fields absent for a missing or
      empty header (`{}`), both present otherwise. */
  datatype ContentType = ContentType(mimeType: Option<string>, charset: Option<string>)

  /** `v` starts at `from` in `s` and runs up to the next `=` or the end. */
  predicate ValueAt(s: string, from: nat, v: string) {
    from + |v| <= |s| && s[from..from + |v|] == v && '=' !in v
    && (from + |v| < |s| ==> s[from + |v|] == '=')
  }

  /** `chparts[1]` for a parameter whose key, trimmed and lower-cased, is
      `charset`: the text between the first `=` and the next one. */
  function ParamCharset(param: string): (v: Option<string>)
    // A parameter without `=` says nothing.
    ensures '=' !in param ==> v.None?
    // Otherwise the key before the first `=` decides, matched after trimming
    // and in any letter case, and the value runs to the next `=`.
    ensures forall i :: (0 <= i < |param| && param[i] == '=' && '=' !in param[..i]) ==>
              (v.Some? <==> Lower(Trim(param[..i])) == "charset")
              && (v.Some? ==> ValueAt(param, i + 1, v.value))
  {
    var chparts := Split(param, '=');
    ParamPieces(param);
    if |chparts| > 1 && Lower(Trim(chparts[0])) == "charset" then Some(chparts[1]) else None
  }

  /** The first two pieces of `param.split('=')`: the key before the first
      `=`, and the value after it. */
  lemma ParamPieces(param: string)
    ensures forall i :: (0 <= i < |param| && param[i] == '=' && '=' !in param[..i]) ==>
              |Split(param, '=')| > 1 && Split(param, '=')[0] == param[..i]
              && ValueAt(param, i + 1, Split(param, '=')[1])
  {
    forall i | 0 <= i < |param| && param[i] == '=' && '=' !in param[..i]
      ensures |Split(param, '=')| > 1 && Split(param, '=')[0] == param[..i]
      ensures ValueAt(param, i + 1, Split(param, '=')[1])
    {
      SplitAtFirst(param, '=', i);
      PieceAfter(param, i + 1);
    }
  }

  /** The first piece of the split of a suffix is a value in the sense of
      `ValueAt`. */
  lemma PieceAfter(s: string, from: nat)
    requires from <= |s|
    ensures ValueAt(s, from, Split(s[from..], '=')[0])
  {
    var rest := s[from..];
    SplitHead(rest, '=');
    var v := Split(rest, '=')[0];
    assert s[from..from + |v|] == rest[..|v|];
    if from + |v| < |s| {
      assert s[from + |v|] == rest[|v|];
    }
  }

  /** What each parameter after the mime type says about the charset. */
  function CharsetValues(header: string): (vals: seq<Option<string>>)
    ensures |vals| == |Split(header, ';')| - 1
  {
    var params := Split(header, ';')[1..];
    seq(|params|, i requires 0 <= i < |params| => ParamCharset(params[i]))
  }

  /** Entry `i` is the last one that names a charset. */
  ghost predicate IsLast(vals: seq<Option<string>>, i: int) {
    0 <= i < |vals| && vals[i].Some? && forall j :: i < j < |vals| ==> vals[j].None?
  }

  /** The parameter loop: each charset parameter overwrites the previous one,
      so the value of the last one survives; `acc` when there is none. */
  function LastCharset(vals: seq<Option<string>>, acc: Option<string>): (r: Option<string>)
    ensures (forall i :: 0 <= i < |vals| ==> vals[i].None?) ==> r == acc
    ensures forall i :: IsLast(vals, i) ==> r == vals[i]
    decreases |vals|
  {
    if |vals| == 0 then acc
    else
      var r := LastCharset(vals[1..], if vals[0].Some? then vals[0] else acc);
      assert forall i :: IsLast(vals, i) && i > 0 ==> IsLast(vals[1..], i - 1);
      r
  }

  /** `(mimeType || '').trim().toLowerCase()`: the trimmed, lower-cased text
      before the first ';'. */
  function MimeType(header: string): (m: string)
    ensures IsNormal(m)
    ensures ';' !in header ==> m == Lower(Trim(header))
    ensures forall i :: (0 <= i < |header| && header[i] == ';' && ';' !in header[..i]) ==>
              m == Lower(Trim(header[..i]))
  {
    var first := Split(header, ';')[0];
    NormalizeIsNormal(first);
    MimeIsFirstPiece(header);
    Lower(Trim(first))
  }

  /** The charset the parameter loop leaves, normalised, with UTF-8 standing
      in for a missing or empty value. */
  function HeaderCharset(header: string): (c: string)
    ensures IsNormal(c)
    ensures (forall i :: 0 <= i < |CharsetValues(header)| ==> CharsetValues(header)[i].None?) ==>
              c == "utf-8"
    ensures forall i :: IsLast(CharsetValues(header), i) ==>
              c == Normalized(CharsetValues(header)[i].value)
  {
    var charset := LastCharset(CharsetValues(header), None);
    Normalized(if charset.Some? then charset.value else "")
  }

  /** `_parseContentType(str)`. */
  function ParseContentType(header: Option<string>): (ct: ContentType)
    // An absent or empty header yields the empty object.
    ensures ct.mimeType.None? <==> !Truthy(header)
    ensures ct.charset.None? <==> !Truthy(header)
    // Otherwise the two fields are read off the header text.
    ensures Truthy(header) ==> ct == ContentType(Some(MimeType(header.value)), Some(HeaderCharset(header.value)))
  {
    if !Truthy(header) then ContentType(None, None)
    else ContentType(Some(MimeType(header.value)), Some(HeaderCharset(header.value)))
  }

  /** `(charset || 'UTF-8').trim().toLowerCase()`. */
  function Normalized(charset: string): (r: string)
    ensures IsNormal(r)
    // The empty value is falsy: UTF-8 stands in for it.
    ensures charset == "" ==> r == "utf-8"
    // A label already in normal form is kept as it is.
    ensures charset != "" && IsNormal(charset) ==> r == charset
    // A value of whitespace only is truthy, and trims to nothing.
    ensures charset != "" && Trim(charset) == "" ==> r == ""
  {
    var raw := if charset != "" then charset else "UTF-8";
    NormalizeIsNormal(raw);
    DefaultLabel();
    if charset != "" && IsNormal(charset) then
      TrimOfTrimmed(charset);
      Lower(Trim(raw))
    else
      Lower(Trim(raw))
  }

  /** Normalisation of a non-empty value ignores surrounding whitespace and
      letter case. */
  lemma NormalizedInvariant(charset: string, before: string, after: string)
    requires charset != ""
    requires forall k :: 0 <= k < |before| ==> IsSpace(before[k])
    requires forall k :: 0 <= k < |after| ==> IsSpace(after[k])
    ensures Normalized(before + charset + after) == Normalized(charset)
    ensures Normalized(Lower(charset)) == Normalized(charset)
  {
    TrimPadded(before, charset, after);
    TrimLower(charset);
    LowerIdempotent(Trim(charset));
  }

  lemma MimeIsFirstPiece(s: string)
    ensures forall i :: 0 <= i < |s| && s[i] == ';' && ';' !in s[..i] ==> Split(s, ';')[0] == s[..i]
    ensures ';' !in s ==> Split(s, ';')[0] == s
  {
    forall i | 0 <= i < |s| && s[i] == ';' && ';' !in s[..i]
      ensures Split(s, ';')[0] == s[..i]
    {
      SplitFirstPiece(s, ';', i);
    }
  }

  /** A header built as `m; charset=c` parses back to `m` and `c`, each
      trimmed and lower-cased (UTF-8 standing in for an empty `c`). */
  lemma ParseFormatted(m: string, c: string)
    requires ';' !in m && ';' !in c && '=' !in c
    ensures ParseContentType(Some(m + "; charset=" + c)) ==
              ContentType(Some(Lower(Trim(m))), Some(Normalized(c)))
  {
    FormattedMime(m, c);
    FormattedCharset(m, c);
  }

  lemma FormattedMime(m: string, c: string)
    requires ';' !in m && ';' !in c
    ensures MimeType(m + "; charset=" + c) == Lower(Trim(m))
  {
    HeaderSplit(m, c);
  }

  lemma FormattedCharset(m: string, c: string)
    requires ';' !in m && ';' !in c && '=' !in c
    ensures HeaderCharset(m + "; charset=" + c) == Normalized(c)
  {
    HeaderValues(m, c);
    assert IsLast([Some(c)], 0);
  }

  lemma HeaderValues(m: string, c: string)
    requires ';' !in m && ';' !in c && '=' !in c
    ensures CharsetValues(m + "; charset=" + c) == [Some(c)]
  {
    HeaderSplit(m, c);
    ParamSplit(c);
  }

  lemma HeaderSplit(m: string, c: string)
    requires ';' !in m && ';' !in c
    ensures Split(m + "; charset=" + c, ';') == [m, " charset=" + c]
  {
    assert m + "; charset=" + c == JoinWith([m, " charset=" + c], ';');
    SplitJoinWith([m, " charset=" + c], ';');
  }

  lemma ParamSplit(c: string)
    requires '=' !in c
    ensures ParamCharset(" charset=" + c) == Some(c)
  {
    assert " charset=" + c == JoinWith([" charset", c], '=');
    SplitJoinWith([" charset", c], '=');
    CharsetKey();
  }

  lemma CharsetKey()
    ensures Lower(Trim(" charset")) == "charset"
  {
    var k := " charset";
    assert SpanStart(k, 1) == 1;
    assert SpanEnd(k, 1, |k|) == |k|;
    assert Trim(k) == "charset";
    LowerOfLower("charset");
  }
}

=== FILE: fetch.dfy ===
/** The body of `read`: deciding between a fetch and literal markup,
    resolving the charset, the conversion gate, the preprocess hook and the
    empty-body check that precedes document construction. */
module Fetch {
  import opened Wrappers
  import opened Strings
  import opened ContentType
  import opened HtmlCharset

  /** The protocols for which `read` issues a request. */
  const RemoteProtocols: set<string> := {"http:", "https:", "unix:", "ftp:", "sftp:"}

  /** The class `[a-z0-9.+-]` of the legacy URL parser's protocol pattern,
      matched case-insensitively. */
  predicate IsSchemeChar(c: char) {
    'a' <= c <= 'z' || 'A' <= c <= 'Z' || '0' <= c <= '9' || c == '.' || c == '+' || c == '-'
  }

  /** What `url.parse` skips before the protocol: every code unit up to and
      including the space (U+0000 to U+0020), U+00A0 and U+FEFF. */
  predicate IsUrlSpace(c: char) {
    c as int < 0x21 || c as int == 0xA0 || c as int == 0xFEFF
  }

  /** After leading URL whitespace up to `i`, `target[i..n]` is a non-empty
      run of scheme characters and a `:` follows it. */
  predicate SchemeAt(target: string, i: nat, n: nat) {
    i < n < |target| && target[n] == ':'
    && (forall k :: 0 <= k < i ==> IsUrlSpace(target[k]))
    && (forall k :: i <= k < n ==> IsSchemeChar(target[k]))
  }

  /** `url.parse(target).protocol`: past the leading whitespace, a non-empty
      run of scheme characters followed by ':', lower-cased, colon included. */
  function Protocol(target: string): (r: Option<string>)
    ensures r.Some? ==> exists i: nat, n: nat :: SchemeAt(target, i, n) && r.value == Lower(target[i..n]) + ":"
    ensures forall i: nat, n: nat :: SchemeAt(target, i, n) ==> r == Some(Lower(target[i..n]) + ":")
    ensures r.Some? ==> |r.value| >= 2 && r.value[|r.value| - 1] == ':'
    ensures r.Some? ==> IsTrimmed(r.value) && Lower(r.value) == r.value
  {
    ProtocolScan(target);
    var i := ScanUntil(target, 0, c => !IsUrlSpace(c));
    var n := ScanUntil(target, i, c => !IsSchemeChar(c));
    if i < n < |target| && target[n] == ':' then
      var p := Lower(target[i..n]) + ":";
      assert SchemeAt(target, i, n);
      assert p[|p| - 1] == ':' && p[0] == LowerChar(target[i]);
      assert Lower(p) == p by {
        assert forall k :: 0 <= k < |p| ==> LowerChar(p[k]) == p[k];
      }
      Some(p)
    else None
  }

  /** Where the scans of `Protocol` stop when the target has a scheme. */
  lemma ProtocolScan(target: string)
    ensures forall i: nat, n: nat :: SchemeAt(target, i, n) ==>
              ScanUntil(target, 0, c => !IsUrlSpace(c)) == i && ScanUntil(target, i, c => !IsSchemeChar(c)) == n
  {
    forall i: nat, n: nat | SchemeAt(target, i, n)
      ensures ScanUntil(target, 0, c => !IsUrlSpace(c)) == i
      ensures ScanUntil(target, i, c => !IsSchemeChar(c)) == n
    {
      assert IsSchemeChar(target[i]);
      ScanStops(target, 0, i, c => !IsUrlSpace(c));
      ScanStops(target, i, n, c => !IsSchemeChar(c));
    }
  }

  /** The dispatch test of `read`: the target is fetched exactly when it
      starts, past URL whitespace, with one of the remote schemes in any
      letter case and a colon. */
  function IsRemote(target: string): (b: bool)
    ensures b <==> exists i: nat, n: nat :: SchemeAt(target, i, n) && Lower(target[i..n]) + ":" in RemoteProtocols
  {
    Protocol(target).Some? && Protocol(target).value in RemoteProtocols
  }

  /** `scheme:rest` whose scheme, in any letter case, is one of the remote
      protocols is fetched. */
  lemma RemoteTarget(scheme: string, rest: string)
    requires Lower(scheme) + ":" in RemoteProtocols
    ensures IsRemote(scheme + ":" + rest)
    ensures Protocol(scheme + ":" + rest) == Some(Lower(scheme) + ":")
  {
    var t := scheme + ":" + rest;
    var l := Lower(scheme);
    RemoteLetters(l + ":");
    assert forall k :: 0 <= k < |l| ==> l[k] == (l + ":")[k];
    assert forall k :: 0 <= k < |scheme| ==> t[k] == scheme[k] && IsSchemeChar(t[k]);
    assert t[|scheme|] == ':';
    assert SchemeAt(t, 0, |scheme|);
    assert t[0..|scheme|] == scheme;
  }

  /** A leading control character is skipped like whitespace: a vertical
      tab before `http:` still leads to a request. */
  lemma ControlPrefixSkipped(t: string)
    requires t == "\U{000B}http://x"
    ensures Protocol(t) == Some("http:") && IsRemote(t)
  {
    assert SchemeAt(t, 1, 5);
    assert t[1..5] == "http";
    var l := Lower("http");
    assert l[0] == 'h' && l[1] == 't' && l[2] == 't' && l[3] == 'p';
    assert l + ":" == "http:";
  }

  /** Each remote protocol is lower-case letters and a colon. */
  lemma RemoteLetters(p: string)
    requires p in RemoteProtocols
    ensures |p| >= 2 && forall k :: 0 <= k < |p| - 1 ==> 'a' <= p[k] <= 'z'
  {
  }

  /** Text whose first character past URL whitespace is not a scheme
      character (markup starts with `<`) is parsed as it is, never fetched. */
  lemma MarkupIsLiteral(target: string, i: nat)
    requires i < |target| && forall k :: 0 <= k < i ==> IsUrlSpace(target[k])
    requires !IsUrlSpace(target[i]) && !IsSchemeChar(target[i])
    ensures Protocol(target).None? && !IsRemote(target)
  {
  }

  /** The charset precedence of `read`: the override, then (for `text/html`
      only) the page's meta declaration, then the header, then UTF-8; the
      winner is trimmed and lower-cased. */
  function ResolveContentType(header: Option<string>, body: seq<byte>, override: Option<string>): (ct: ContentType)
    ensures ct.mimeType == ParseContentType(header).mimeType
    ensures ct.charset.Some? && IsNormal(ct.charset.value)
  {
    var parsed := ParseContentType(header);
    var declared :=
      if parsed.mimeType == Some("text/html") then Or(FindHtmlCharset(AsciiDecode(body)), parsed.charset)
      else parsed.charset;
    var fallback := Or(declared, Some("utf-8"));
    var chosen := Or(override, fallback);
    assert chosen.Some?;
    NormalizeIsNormal(chosen.value);
    ContentType(parsed.mimeType, Some(Lower(Trim(chosen.value))))
  }

  /** `/^utf-?8$/i`, written out. */
  predicate Utf8Pattern(c: string) {
    |c| >= 4 && LowerChar(c[0]) == 'u' && LowerChar(c[1]) == 't' && LowerChar(c[2]) == 'f'
    && ((|c| == 4 && c[3] == '8') || (|c| == 5 && c[3] == '-' && c[4] == '8'))
  }

  /** The gate's test: `utf-8` and `utf8` in any letter case, nothing else. */
  function MatchesUtf8(c: string): (b: bool)
    ensures b <==> Lower(c) == "utf-8" || Lower(c) == "utf8"
  {
    Utf8Labels(c);
    Utf8Pattern(c)
  }

  /** The conversion gate: bytes are transcoded unless the charset is utf-8
      written with or without the hyphen. */
  predicate NeedsConversion(charset: string) {
    !MatchesUtf8(charset)
  }

  /** What the transport layer hands back. */
  datatype Response = Response(contentType: Option<string>, body: seq<byte>, finalUrl: string)

  datatype FetchOutcome = TransportError(cause: string) | Fetched(response: Response)

  /** The foreign code `read` calls: the HTTP request, the charset converter
      (bytes, source charset) to UTF-8, and decoding the UTF-8 buffer to text. */
  datatype Transport = Transport(
    request: string -> FetchOutcome,
    convert: (seq<byte>, string) -> seq<byte>,
    decode: seq<byte> -> string)

  /** `options.encoding` and `options.preprocess`; the hook receives the text,
      the response and the resolved content type, and may fail. */
  datatype Options = Options(
    encoding: Option<string>,
    preprocess: Option<(string, Response, ContentType) -> Result<string, string>>)

  datatype ReadError = FetchError(cause: string) | PreprocessError(cause: string) | EmptyBody

  /** How `read` ends: an error for the callback, or markup handed to the
      document builder together with the URL it came from. */
  datatype Outcome = Failed(error: ReadError) | Build(markup: string, originalUrl: Option<string>)

  /** The outcome, plus which foreign calls were made: the URL requested and
      the charset the converter was asked to convert from. */
  datatype ReadResult = ReadResult(requested: Option<string>, convertedFrom: Option<string>, outcome: Outcome)

  /** `jsdomParse` up to document construction: an empty body is rejected. */
  function Deliver(body: string, originalUrl: Option<string>): (o: Outcome)
    ensures o == Failed(EmptyBody) <==> body == ""
    ensures o.Build? ==> o.markup == body && o.originalUrl == originalUrl
  {
    if body == "" then Failed(EmptyBody) else Build(body, originalUrl)
  }

  /** `read(html, options, callback)` up to document construction. */
  function Read(t: Transport, target: string, opts: Options): (r: ReadResult)
    // A request is issued exactly for the remote protocols, for the target itself.
    ensures r.requested == (if IsRemote(target) then Some(target) else None)
    // Anything else is the markup itself, with no conversion.
    ensures !IsRemote(target) ==> r.convertedFrom.None? && r.outcome == Deliver(target, None)
    // Conversion happens only after a successful request, and never for utf-8.
    ensures r.convertedFrom.Some? ==> t.request(target).Fetched? && NeedsConversion(r.convertedFrom.value)
    ensures r.convertedFrom.Some? ==> r.convertedFrom.value == ResolvedCharset(t.request(target).response, opts)
    // A transport failure is reported with its cause.
    ensures IsRemote(target) && t.request(target).TransportError? ==>
              r.outcome == Failed(FetchError(t.request(target).cause)) && r.convertedFrom.None?
    // A response is handled as `Receive` states.
    ensures IsRemote(target) && t.request(target).Fetched? ==>
              r == Receive(t, target, t.request(target).response, opts)
    // Markup handed on is never empty.
    ensures r.outcome.Build? ==> r.outcome.markup != ""
  {
    if !IsRemote(target) then ReadResult(None, None, Deliver(target, None))
    else match t.request(target)
      case TransportError(cause) => ReadResult(Some(target), None, Failed(FetchError(cause)))
      case Fetched(res) =>
        var r := Receive(t, target, res, opts);
        assert r.convertedFrom.Some? ==> NeedsConversion(r.convertedFrom.value);
        r
  }

  /** The request callback of `read` for a response to `target`: resolve the
      charset, convert unless it is utf-8, decode, run the hook if there is
      one, and hand the text on. */
  function Receive(t: Transport, target: string, res: Response, opts: Options): (r: ReadResult)
    ensures r.requested == Some(target)
    // The converter is called exactly for a charset other than utf-8, and
    // from that charset.
    ensures r.convertedFrom.Some? <==> NeedsConversion(ResolvedCharset(res, opts))
    ensures r.convertedFrom.Some? ==> r.convertedFrom.value == ResolvedCharset(res, opts)
    // The decoded (and, if needed, converted) body is handed off as
    // `Handoff` states, with the resolved content type.
    ensures var text := t.decode(if r.convertedFrom.Some? then t.convert(res.body, r.convertedFrom.value) else res.body);
      r.outcome == Handoff(opts.preprocess, text, res, ResolveContentType(res.contentType, res.body, opts.encoding))
    // Markup handed on is never empty.
    ensures r.outcome.Build? ==> r.outcome.markup != ""
  {
    var ct := ResolveContentType(res.contentType, res.body, opts.encoding);
    var charset := ct.charset.value;
    assert charset == ResolvedCharset(res, opts);
    var from := if NeedsConversion(charset) then Some(charset) else None;
    var text := t.decode(if from.Some? then t.convert(res.body, from.value) else res.body);
    ReadResult(Some(target), from, Handoff(opts.preprocess, text, res, ct))
  }

  /** The decoded text goes to the hook when there is one, and then on to the
      document builder together with the URL the response came from; a
      failing hook ends the read. */
  function Handoff(hook: Option<(string, Response, ContentType) -> Result<string, string>>,
                   text: string, res: Response, ct: ContentType): (o: Outcome)
    ensures hook.None? ==> o == Deliver(text, Some(res.finalUrl))
    ensures hook.Some? ==>
              match hook.value(text, res, ct)
              case Failure(e) => o == Failed(PreprocessError(e))
              case Success(text') => o == Deliver(text', Some(res.finalUrl))
    ensures o.Build? ==> o.markup != ""
  {
    match hook
    case None => Deliver(text, Some(res.finalUrl))
    case Some(h) =>
      match h(text, res, ct)
      case Failure(e) => Failed(PreprocessError(e))
      case Success(text') => Deliver(text', Some(res.finalUrl))
  }

  /** The charset `read` settles on for a response. */
  function ResolvedCharset(res: Response, opts: Options): string {
    ResolveContentType(res.contentType, res.body, opts.encoding).charset.value
  }

  /** A normal label is a fixed point of normalisation. */
  lemma NormalFixed(c: string)
    requires IsNormal(c)
    ensures Lower(Trim(c)) == c
  {
    TrimOfTrimmed(c);
  }

  /** The precedence of the charset sources, case by case. */
  lemma CharsetPrecedence(header: Option<string>, body: seq<byte>, override: Option<string>)
    ensures var c := ResolveContentType(header, body, override).charset.value;
      var parsed := ParseContentType(header);
      var meta := FindHtmlCharset(AsciiDecode(body));
      var fromMeta := parsed.mimeType == Some("text/html") && Truthy(meta);
      && (Truthy(override) ==> c == Lower(Trim(override.value)))
      && (!Truthy(override) && fromMeta ==> c == meta.value)
      && (!Truthy(override) && !fromMeta && Truthy(parsed.charset) ==> c == parsed.charset.value)
      && (!Truthy(override) && !fromMeta && !Truthy(parsed.charset) ==> c == "utf-8")
  {
    var parsed := ParseContentType(header);
    var meta := FindHtmlCharset(AsciiDecode(body));
    var fromMeta := parsed.mimeType == Some("text/html") && Truthy(meta);
    if Truthy(override) {
      OverrideWins(header, body, override);
    } else if fromMeta {
      MetaWins(header, body, override);
    } else if Truthy(parsed.charset) {
      HeaderWins(header, body, override);
    } else {
      DefaultWins(header, body, override);
    }
  }

  lemma OverrideWins(header: Option<string>, body: seq<byte>, override: Option<string>)
    requires Truthy(override)
    ensures ResolveContentType(header, body, override).charset.value == Lower(Trim(override.value))
  {
  }

  lemma MetaWins(header: Option<string>, body: seq<byte>, override: Option<string>)
    requires !Truthy(override)
    requires ParseContentType(header).mimeType == Some("text/html") && Truthy(FindHtmlCharset(AsciiDecode(body)))
    ensures ResolveContentType(header, body, override).charset.value == FindHtmlCharset(AsciiDecode(body)).value
  {
    NormalFixed(FindHtmlCharset(AsciiDecode(body)).value);
  }

  lemma HeaderWins(header: Option<string>, body: seq<byte>, override: Option<string>)
    requires !Truthy(override)
    requires !(ParseContentType(header).mimeType == Some("text/html") && Truthy(FindHtmlCharset(AsciiDecode(body))))
    requires Truthy(ParseContentType(header).charset)
    ensures ResolveContentType(header, body, override).charset.value == ParseContentType(header).charset.value
  {
    NormalFixed(ParseContentType(header).charset.value);
  }

  lemma DefaultWins(header: Option<string>, body: seq<byte>, override: Option<string>)
    requires !Truthy(override)
    requires !(ParseContentType(header).mimeType == Some("text/html") && Truthy(FindHtmlCharset(AsciiDecode(body))))
    requires !Truthy(ParseContentType(header).charset)
    ensures ResolveContentType(header, body, override).charset.value == "utf-8"
  {
    Utf8Normal();
  }

  /** The page is scanned only for `text/html`: for any other type the body
      cannot influence the charset. */
  lemma MetaOnlyForHtml(header: Option<string>, body1: seq<byte>, body2: seq<byte>, override: Option<string>)
    requires ParseContentType(header).mimeType != Some("text/html")
    ensures ResolveContentType(header, body1, override) == ResolveContentType(header, body2, override)
  {
  }

  /** The gate matches utf-8 and utf8 in any letter case, and nothing else. */
  lemma {:induction false} Utf8Labels(c: string)
    ensures Utf8Pattern(c) <==> Lower(c) == "utf-8" || Lower(c) == "utf8"
  {
    var l := Lower(c);
    if l == "utf-8" || l == "utf8" {
      assert LowerChar(c[0]) == 'u' && LowerChar(c[1]) == 't' && LowerChar(c[2]) == 'f';
      assert LowerChar(c[3]) == l[3];
      if |c| == 5 {
        assert LowerChar(c[4]) == '8';
      }
    }
    if Utf8Pattern(c) {
      if |c| == 4 {
        assert l == "utf8" by {
          assert l[0] == 'u' && l[1] == 't' && l[2] == 'f' && l[3] == '8';
        }
      } else {
        assert l == "utf-8" by {
          assert l[0] == 'u' && l[1] == 't' && l[2] == 'f' && l[3] == '-' && l[4] == '8';
        }
      }
    }
  }

  /** For a response, `read` converts exactly when the resolved charset is
      neither "utf-8" nor "utf8", and from that charset. */
  lemma ConversionExactlyWhenNotUtf8(t: Transport, target: string, opts: Options)
    requires IsRemote(target) && t.request(target).Fetched?
    ensures var c := ResolvedCharset(t.request(target).response, opts);
      && (Read(t, target, opts).convertedFrom.Some? <==> c != "utf-8" && c != "utf8")
      && (Read(t, target, opts).convertedFrom.Some? ==> Read(t, target, opts).convertedFrom.value == c)
  {
  }
}

=== FILE: html_charset.dfy ===
/** The meta-charset scan (`_findHTMLCharset`). Each regular expression of
    the original is written out as a function that says whether, and with
    what capture, it matches at one position, together with the leftmost
    search that `String.prototype.match` performs. */
module HtmlCharset {
  import opened Wrappers
  import opened Strings

  type byte = b: int | 0 <= b < 256

  /** `buffer.toString('ascii')`: every byte with its high bit cleared. */
  function AsciiDecode(buf: seq<byte>): (s: string)
    ensures |s| == |buf|
    ensures forall i :: 0 <= i < |buf| ==> s[i] as int == buf[i] % 128
  {
    seq(|buf|, i requires 0 <= i < |buf| => (buf[i] % 128) as char)
  }

  predicate IsQuote(c: char) {
    c == '"' || c == '\''
  }

  /** The class `[a-zA-Z\-0-9]`. */
  predicate IsTokenChar(c: char) {
    'a' <= c <= 'z' || 'A' <= c <= 'Z' || '0' <= c <= '9' || c == '-'
  }

  /** The lower-case literal `lit` occurs at `p`, matched case-insensitively
      as the `i` flag does for ASCII letters. */
  predicate CiLiteralAt(s: string, p: nat, lit: string) {
    p + |lit| <= |s| && forall k :: 0 <= k < |lit| ==> LowerChar(s[p + k]) == lit[k]
  }

  /** The literal `lit` occurs at `p`, case-sensitively. */
  predicate LiteralAt(s: string, p: nat, lit: string) {
    p + |lit| <= |s| && s[p..p + |lit|] == lit
  }

  /** The first index at or after `i` whose character satisfies `stop`, or
      `|s|` when there is none. */
  function ScanUntil(s: string, i: nat, stop: char -> bool): (j: nat)
    requires i <= |s|
    ensures i <= j <= |s|
    ensures forall k :: i <= k < j ==> !stop(s[k])
    ensures j < |s| ==> stop(s[j])
    decreases |s| - i
  {
    if i == |s| || stop(s[i]) then i else ScanUntil(s, i + 1, stop)
  }

  /** The leftmost position in `[from, to]` at which `at` reports a match,
      with what it reports: the search a non-global `match` performs. */
  function Leftmost<T>(at: nat -> Option<T>, from: nat, to: nat): (r: Option<(nat, T)>)
    ensures r.Some? ==> from <= r.value.0 <= to && at(r.value.0) == Some(r.value.1)
    ensures r.Some? ==> (forall q :: from <= q < r.value.0 ==> at(q).None?)
    ensures r.None? ==> (forall q :: from <= q <= to ==> at(q).None?)
    decreases (to as int) - from
  {
    if from > to then None
    else match at(from)
      case Some(v) => Some((from, v))
      case None => Leftmost(at, from + 1, to)
  }

  /** Whitespace fills `s[lo..hi]`. */
  predicate SpacesBetween(s: string, lo: nat, hi: nat) {
    lo <= hi <= |s| && forall k :: lo <= k < hi ==> IsSpace(s[k])
  }

  /** The parts of a `<meta\s+http-equiv=["']content-type["'][^>]*?>` match
      at `p`: `<meta`, whitespace up to `j`, `http-equiv=`, a quote,
      `content-type`, a quote, then everything up to the first `>`, which
      ends the match at `e`. Letters match in either case. */
  predicate HttpEquivMatch(s: string, p: nat, j: nat, e: nat) {
    CiLiteralAt(s, p, "<meta") && p + 5 < j && SpacesBetween(s, p + 5, j)
    && CiLiteralAt(s, j, "http-equiv=") && j + 11 < |s| && IsQuote(s[j + 11])
    && CiLiteralAt(s, j + 12, "content-type") && j + 24 < |s| && IsQuote(s[j + 24])
    && j + 25 < e <= |s| && s[e - 1] == '>'
    && forall k :: j + 25 <= k < e - 1 ==> s[k] != '>'
  }

  /** `/<meta\s+http-equiv=["']content-type["'][^>]*?>/i` at `p`: the end of
      the matched tag, which runs to the first `>` after the quoted value. */
  function HttpEquivTagAt(s: string, p: nat): (e: Option<nat>)
    ensures e.Some? ==> p + 26 <= e.value <= |s| && s[e.value - 1] == '>'
    ensures e.Some? ==> exists j: nat :: HttpEquivMatch(s, p, j, e.value)
    // The match is the only one the pattern has at `p`.
    ensures forall j: nat, f: nat :: HttpEquivMatch(s, p, j, f) ==> e == Some(f)
  {
    HttpEquivRunFound(s, p);
    HttpEquivRunUnique(s, p);
    HttpEquivRun(s, p)
  }

  /** The two scans of `HttpEquivTagAt`. */
  function HttpEquivRun(s: string, p: nat): Option<nat> {
    if CiLiteralAt(s, p, "<meta") && p + 5 < |s| && IsSpace(s[p + 5]) then
      var j := ScanUntil(s, p + 5, c => !IsSpace(c));
      if CiLiteralAt(s, j, "http-equiv=") && j + 11 < |s| && IsQuote(s[j + 11])
         && CiLiteralAt(s, j + 12, "content-type") && j + 24 < |s| && IsQuote(s[j + 24])
      then
        var q := ScanUntil(s, j + 25, c => c == '>');
        if q < |s| then Some(q + 1) else None
      else None
    else None
  }

  /** What the scans find is a match. */
  lemma HttpEquivRunFound(s: string, p: nat)
    ensures var e := HttpEquivRun(s, p);
      e.Some? ==> p + 26 <= e.value <= |s| && s[e.value - 1] == '>' && exists j: nat :: HttpEquivMatch(s, p, j, e.value)
  {
    if HttpEquivRun(s, p).Some? {
      var j := ScanUntil(s, p + 5, c => !IsSpace(c));
      var q := ScanUntil(s, j + 25, c => c == '>');
      assert HttpEquivMatch(s, p, j, q + 1);
    }
  }

  /** Every match is the one the scans find. */
  lemma HttpEquivRunUnique(s: string, p: nat)
    ensures forall j: nat, f: nat :: HttpEquivMatch(s, p, j, f) ==> HttpEquivRun(s, p) == Some(f)
  {
    HttpEquivScan(s, p);
  }

  /** Where the scans of `HttpEquivTagAt` stop on a match. */
  lemma HttpEquivScan(s: string, p: nat)
    ensures forall j: nat, f: nat :: HttpEquivMatch(s, p, j, f) ==>
              p + 5 < |s| && IsSpace(s[p + 5]) && f - 1 < |s|
              && ScanUntil(s, p + 5, c => !IsSpace(c)) == j && ScanUntil(s, j + 25, c => c == '>') == f - 1
  {
    forall j: nat, f: nat | HttpEquivMatch(s, p, j, f)
      ensures p + 5 < |s| && IsSpace(s[p + 5]) && f - 1 < |s|
      ensures ScanUntil(s, p + 5, c => !IsSpace(c)) == j
      ensures ScanUntil(s, j + 25, c => c == '>') == f - 1
    {
      assert LowerChar(s[j + 0]) == "http-equiv="[0];
      ScanStops(s, p + 5, j, c => !IsSpace(c));
      ScanStops(s, j + 25, f - 1, c => c == '>');
    }
  }

  /** After an `=` ending at `a`: one whitespace character if there is one
      (the greedy `\s?`), then the longest run of token characters (the
      greedy `[a-zA-Z\-0-9]*`), which is `v`. */
  predicate TokenAfter(t: string, a: nat, v: string) {
    var b := if a < |t| && IsSpace(t[a]) then a + 1 else a;
    b + |v| <= |t| && t[b..b + |v|] == v
    && (forall k :: 0 <= k < |v| ==> IsTokenChar(v[k]))
    && (b + |v| < |t| ==> !IsTokenChar(t[b + |v|]))
  }

  /** `/charset\s?=\s?([a-zA-Z\-0-9]*);?/` at `p` (case-sensitive): the
      captured token, the longest run of token characters after the `=` and
      at most one whitespace character. */
  function CharsetTokenAt(t: string, p: nat): (v: Option<string>)
    ensures v.Some? ==> LiteralAt(t, p, "charset")
    ensures v.Some? ==> forall k :: 0 <= k < |v.value| ==> IsTokenChar(v.value[k])
    // It matches exactly when `charset` is followed by `=`, possibly after
    // one whitespace character.
    ensures v.Some? <==> (LiteralAt(t, p, "charset")
              && ((p + 7 < |t| && t[p + 7] == '=') || (p + 8 < |t| && IsSpace(t[p + 7]) && t[p + 8] == '=')))
    // The capture follows that `=`.
    ensures v.Some? && p + 7 < |t| && t[p + 7] == '=' ==> TokenAfter(t, p + 8, v.value)
    ensures v.Some? && p + 7 < |t| && t[p + 7] != '=' ==> TokenAfter(t, p + 9, v.value)
  {
    CharsetTokenRunShape(t, p);
    CharsetTokenRunCapture(t, p);
    CharsetTokenRun(t, p)
  }

  /** Where the `=` of `charset\s?=` ends, if it is there. */
  function CharsetEquals(t: string, p: nat): Option<nat> {
    if LiteralAt(t, p, "charset") then
      var i := p + 7;
      if i < |t| && t[i] == '=' then Some(i + 1)
      else if i + 1 < |t| && IsSpace(t[i]) && t[i + 1] == '=' then Some(i + 2)
      else None
    else None
  }

  /** The scan of `CharsetTokenAt`. */
  function CharsetTokenRun(t: string, p: nat): Option<string> {
    match CharsetEquals(t, p)
    case None => None
    case Some(a) =>
      var b := if a < |t| && IsSpace(t[a]) then a + 1 else a;
      Some(t[b..ScanUntil(t, b, c => !IsTokenChar(c))])
  }

  lemma CharsetTokenRunShape(t: string, p: nat)
    ensures var v := CharsetTokenRun(t, p);
      && (v.Some? <==> (LiteralAt(t, p, "charset")
            && ((p + 7 < |t| && t[p + 7] == '=') || (p + 8 < |t| && IsSpace(t[p + 7]) && t[p + 8] == '='))))
      && (v.Some? && p + 7 < |t| && t[p + 7] == '=' ==> CharsetEquals(t, p) == Some(p + 8))
      && (v.Some? && p + 7 < |t| && t[p + 7] != '=' ==> CharsetEquals(t, p) == Some(p + 9))
  {
  }

  lemma CharsetTokenRunCapture(t: string, p: nat)
    ensures CharsetEquals(t, p).Some? ==> TokenAfter(t, CharsetEquals(t, p).value, CharsetTokenRun(t, p).value)
  {
    if CharsetEquals(t, p).Some? {
      var a := CharsetEquals(t, p).value;
      var b := if a < |t| && IsSpace(t[a]) then a + 1 else a;
      var w := ScanUntil(t, b, c => !IsTokenChar(c));
      assert TokenAfter(t, a, t[b..w]);
    }
  }

  /** The parts of a `<meta\s+charset=["'](.*?)["']` match at `p`: `<meta`,
      whitespace up to `j`, `charset=`, a quote, then the capture up to the
      first quote at `q`, with no line break before it. */
  predicate MetaCharsetMatch(s: string, p: nat, j: nat, q: nat) {
    CiLiteralAt(s, p, "<meta") && p + 5 < j && SpacesBetween(s, p + 5, j)
    && CiLiteralAt(s, j, "charset=") && j + 8 < |s| && IsQuote(s[j + 8])
    && j + 9 <= q < |s| && IsQuote(s[q])
    && forall k :: j + 9 <= k < q ==> !IsQuote(s[k]) && !IsLineTerminator(s[k])
  }

  /** `/<meta\s+charset=["'](.*?)["']/i` at `p`: the capture runs to the first
      quote of either kind, and there is no match when a line break comes
      first. */
  function MetaCharsetAt(s: string, p: nat): (v: Option<string>)
    ensures v.Some? ==> CiLiteralAt(s, p, "<meta")
    ensures v.Some? ==> forall k :: 0 <= k < |v.value| ==>
              !IsQuote(v.value[k]) && !IsLineTerminator(v.value[k])
    ensures v.Some? ==> exists j: nat, q: nat :: MetaCharsetMatch(s, p, j, q) && v.value == s[j + 9..q]
    // The match is the only one the pattern has at `p`.
    ensures forall j: nat, q: nat :: MetaCharsetMatch(s, p, j, q) ==> v == Some(s[j + 9..q])
  {
    MetaRunFound(s, p);
    MetaRunUnique(s, p);
    MetaCharsetRun(s, p)
  }

  /** The two scans of `MetaCharsetAt`. */
  function MetaCharsetRun(s: string, p: nat): Option<string> {
    if CiLiteralAt(s, p, "<meta") && p + 5 < |s| && IsSpace(s[p + 5]) then
      var j := ScanUntil(s, p + 5, c => !IsSpace(c));
      if CiLiteralAt(s, j, "charset=") && j + 8 < |s| && IsQuote(s[j + 8]) then
        var q := ScanUntil(s, j + 9, c => IsQuote(c) || IsLineTerminator(c));
        if q < |s| && IsQuote(s[q]) then Some(s[j + 9..q]) else None
      else None
    else None
  }

  /** What the scans find is a match. */
  lemma MetaRunFound(s: string, p: nat)
    ensures var v := MetaCharsetRun(s, p);
      v.Some? ==>
        (CiLiteralAt(s, p, "<meta")
         && (forall k :: 0 <= k < |v.value| ==> !IsQuote(v.value[k]) && !IsLineTerminator(v.value[k]))
         && exists j: nat, q: nat :: MetaCharsetMatch(s, p, j, q) && v.value == s[j + 9..q])
  {
    var v := MetaCharsetRun(s, p);
    if v.Some? {
      var j := ScanUntil(s, p + 5, c => !IsSpace(c));
      var q := ScanUntil(s, j + 9, c => IsQuote(c) || IsLineTerminator(c));
      assert MetaCharsetMatch(s, p, j, q);
      assert forall k :: 0 <= k < |v.value| ==> v.value[k] == s[j + 9 + k];
    }
  }

  /** Every match is the one the scans find. */
  lemma MetaRunUnique(s: string, p: nat)
    ensures forall j: nat, q: nat :: MetaCharsetMatch(s, p, j, q) ==> MetaCharsetRun(s, p) == Some(s[j + 9..q])
  {
    MetaCharsetScan(s, p);
  }

  /** Where the scans of `MetaCharsetAt` stop on a match. */
  lemma MetaCharsetScan(s: string, p: nat)
    ensures forall j: nat, q: nat :: MetaCharsetMatch(s, p, j, q) ==>
              p + 5 < |s| && IsSpace(s[p + 5])
              && ScanUntil(s, p + 5, c => !IsSpace(c)) == j
              && ScanUntil(s, j + 9, c => IsQuote(c) || IsLineTerminator(c)) == q
  {
    forall j: nat, q: nat | MetaCharsetMatch(s, p, j, q)
      ensures p + 5 < |s| && IsSpace(s[p + 5])
      ensures ScanUntil(s, p + 5, c => !IsSpace(c)) == j
      ensures ScanUntil(s, j + 9, c => IsQuote(c) || IsLineTerminator(c)) == q
    {
      assert LowerChar(s[j + 0]) == "charset="[0];
      ScanStops(s, p + 5, j, c => !IsSpace(c));
      ScanStops(s, j + 9, q, c => IsQuote(c) || IsLineTerminator(c));
    }
  }

  /** A token is already trimmed, so normalising it only lower-cases it. */
  lemma TokenNormal(v: string)
    requires forall k :: 0 <= k < |v| ==> IsTokenChar(v[k])
    ensures IsTrimmed(v)
  {
    if v != [] {
      assert IsTokenChar(v[0]) && IsTokenChar(v[|v| - 1]);
    }
  }

  /** `body.match(/<meta\s+http-equiv=…>/i)`: where the leftmost matching
      tag starts and ends. */
  function FirstHttpEquivTag(s: string): (r: Option<(nat, nat)>)
    ensures r.Some? ==> r.value.0 <= |s| && HttpEquivTagAt(s, r.value.0) == Some(r.value.1)
    ensures r.Some? ==> forall q :: 0 <= q < r.value.0 ==> HttpEquivTagAt(s, q).None?
    ensures r.None? ==> forall q :: 0 <= q <= |s| ==> HttpEquivTagAt(s, q).None?
  {
    var at := p => HttpEquivTagAt(s, p);
    assert forall p :: at(p) == HttpEquivTagAt(s, p);
    Leftmost(at, 0, |s|)
  }

  /** `input.match(/charset\s?=\s?([a-zA-Z\-0-9]*);?/)`: the capture of the
      leftmost match in the tag text. */
  function FirstCharsetToken(t: string): (r: Option<string>)
    ensures r.Some? ==> exists p :: (0 <= p <= |t| && CharsetTokenAt(t, p) == r
              && forall q :: 0 <= q < p ==> CharsetTokenAt(t, q).None?)
    ensures r.None? ==> forall q :: 0 <= q <= |t| ==> CharsetTokenAt(t, q).None?
  {
    var at := p => CharsetTokenAt(t, p);
    assert forall p :: at(p) == CharsetTokenAt(t, p);
    match Leftmost(at, 0, |t|)
    case None => None
    case Some((_, v)) => Some(v)
  }

  /** The label a captured token stands for: the token lower-cased (it has
      no whitespace to trim). */
  function TokenLabel(token: Option<string>): (r: Option<string>)
    requires token.Some? ==> forall k :: 0 <= k < |token.value| ==> IsTokenChar(token.value[k])
    ensures r.Some? <==> token.Some?
    ensures r.Some? ==> IsNormal(r.value) && r.value == Lower(Trim(token.value))
  {
    match token
    case None => None
    case Some(v) =>
      TokenNormal(v);
      TrimOfTrimmed(v);
      NormalizeIsNormal(v);
      Some(Lower(v))
  }

  /** What the first http-equiv content-type tag declares: nothing when there
      is no such tag or it has no `charset=`; otherwise its token (possibly
      empty), normalised. */
  function TagCharset(s: string): (r: Option<string>)
    ensures r.Some? ==> IsNormal(r.value)
    ensures FirstHttpEquivTag(s).None? ==> r.None?
    ensures FirstHttpEquivTag(s).Some? ==>
              r == TokenLabel(FirstCharsetToken(s[FirstHttpEquivTag(s).value.0..FirstHttpEquivTag(s).value.1]))
  {
    match FirstHttpEquivTag(s)
    case None => None
    case Some((p, e)) => TokenLabel(FirstCharsetToken(s[p..e]))
  }

  /** The raw capture of the first `<meta charset="…">` tag. */
  function MetaCharset(s: string): (r: Option<string>)
    ensures r.Some? ==> exists p :: (0 <= p <= |s| && MetaCharsetAt(s, p) == r
              && forall q :: 0 <= q < p ==> MetaCharsetAt(s, q).None?)
    ensures r.None? ==> forall p :: 0 <= p <= |s| ==> MetaCharsetAt(s, p).None?
  {
    var at := p => MetaCharsetAt(s, p);
    assert forall p :: at(p) == MetaCharsetAt(s, p);
    match Leftmost(at, 0, |s|)
    case None => None
    case Some((_, v)) => Some(v)
  }

  /** `_findHTMLCharset(buffer)` on the ASCII text of the buffer. */
  function FindHtmlCharset(s: string): (r: Option<string>)
    // Any value returned is trimmed and lower-cased.
    ensures r.Some? ==> IsNormal(r.value)
    // A non-empty token in the http-equiv tag is preferred.
    ensures Truthy(TagCharset(s)) ==> r == TagCharset(s)
    // `<meta charset>` is consulted only when the tag yields nothing or "".
    ensures !Truthy(TagCharset(s)) && MetaCharset(s).Some? ==>
              r == Some(Lower(Trim(MetaCharset(s).value)))
    ensures !Truthy(TagCharset(s)) && MetaCharset(s).None? ==> r == TagCharset(s)
    // With neither declaration the result is undefined.
    ensures r.None? <==> TagCharset(s).None? && MetaCharset(s).None?
  {
    var fromTag := TagCharset(s);
    if Truthy(fromTag) then fromTag
    else match MetaCharset(s)
      case Some(v) => NormalizeIsNormal(v); Some(Lower(Trim(v)))
      case None => fromTag
  }

  /** `<meta charset="UTF-8">` declares utf-8. */
  lemma ExampleMetaCharset(s: string)
    requires s == "<meta charset=\"UTF-8\">"
    ensures FindHtmlCharset(s) == Some("utf-8")
  {
    ExampleNoHttpEquiv(s);
    ExampleMetaCapture(s);
    assert MetaCharset(s) == Some("UTF-8");
    DefaultLabel();
  }

  lemma ExampleNoHttpEquiv(s: string)
    requires s == "<meta charset=\"UTF-8\">"
    ensures TagCharset(s).None?
  {
    assert FirstHttpEquivTag(s).None? by {
      forall p | 0 <= p <= |s| ensures HttpEquivTagAt(s, p).None? {
        NoTagAt(s, p);
      }
    }
  }

  lemma NoTagAt(s: string, p: nat)
    requires s == "<meta charset=\"UTF-8\">" && p <= |s|
    ensures HttpEquivTagAt(s, p).None?
  {
    if 0 < p < |s| {
      assert s[p] != '<';
    } else if p == 0 {
      assert s[6] == 'c';
    }
  }

  lemma ExampleMetaCapture(s: string)
    requires s == "<meta charset=\"UTF-8\">"
    ensures MetaCharsetAt(s, 0) == Some("UTF-8")
  {
    ExampleMetaMatch(s);
    assert s[15..20] == "UTF-8";
  }

  lemma ExampleMetaMatch(s: string)
    requires s == "<meta charset=\"UTF-8\">"
    ensures MetaCharsetMatch(s, 0, 6, 20)
  {
    SampleMetaOpen(s);
    SampleMetaKey(s);
    SampleMetaValue(s);
  }

  lemma SampleMetaOpen(s: string)
    requires s == "<meta charset=\"UTF-8\">"
    ensures CiLiteralAt(s, 0, "<meta")
  {
  }

  lemma SampleMetaKey(s: string)
    requires s == "<meta charset=\"UTF-8\">"
    ensures CiLiteralAt(s, 6, "charset=")
  {
  }

  lemma SampleMetaValue(s: string)
    requires s == "<meta charset=\"UTF-8\">"
    ensures forall k :: 15 <= k < 20 ==> !IsQuote(s[k]) && !IsLineTerminator(s[k])
  {
  }

  /** The scan stops at the first stopping character. */
  lemma ScanStops(s: string, i: nat, j: nat, stop: char -> bool)
    requires i <= j < |s| && stop(s[j])
    requires forall k :: i <= k < j ==> !stop(s[k])
    ensures ScanUntil(s, i, stop) == j
  {
  }

  /** The classic http-equiv declaration is read from its `content`
      attribute: `charset=ISO-8859-1` gives "iso-8859-1". */
  lemma ExampleHttpEquiv(s: string)
    requires s == HttpEquivSample()
    ensures FindHtmlCharset(s) == Some("iso-8859-1")
  {
    ExampleTagCharset(s);
  }

  lemma ExampleTagCharset(s: string)
    requires s == HttpEquivSample()
    ensures TagCharset(s) == Some("iso-8859-1")
  {
    ExampleHttpEquivTag(s);
    assert FirstHttpEquivTag(s) == Some((0, 72));
    assert s[0..72] == s;
    ExampleHttpEquivToken(s);
    IsoLabel();
    TrimOfTrimmed("ISO-8859-1");
  }

  /** `<meta http-equiv="Content-Type" content="text/html; charset=ISO-8859-1">`,
      assembled from short pieces. */
  function HttpEquivSample(): (s: string)
    ensures |s| == 72
  {
    "<meta http-equiv=\"" + "Content-Type\" " + "content=\"text/html; " + "charset=ISO-8859-1\">"
  }

  lemma IsoLabel()
    ensures Lower(Trim("ISO-8859-1")) == "iso-8859-1"
  {
    var name := "ISO-8859-1";
    assert IsTrimmed(name);
    TrimOfTrimmed(name);
    var l := Lower(name);
    assert l[0] == 'i' && l[1] == 's' && l[2] == 'o';
    assert forall k :: 3 <= k < 10 ==> l[k] == name[k];
  }

  lemma ExampleHttpEquivTag(s: string)
    requires s == HttpEquivSample()
    ensures HttpEquivTagAt(s, 0) == Some(72)
  {
    SamplePieces(s);
    OpenTagPiece(s);
    TypePiece(s);
    NoCloseBefore(s);
    ScanStops(s, 5, 6, c => !IsSpace(c));
    ScanStops(s, 31, 71, c => c == '>');
  }

  lemma SamplePieces(s: string)
    requires s == HttpEquivSample()
    ensures s[..18] == "<meta http-equiv=\""
    ensures s[18..32] == "Content-Type\" "
    ensures s[32..52] == "content=\"text/html; "
    ensures s[52..] == "charset=ISO-8859-1\">"
  {
  }

  lemma OpenTagPiece(s: string)
    requires |s| >= 18 && s[..18] == "<meta http-equiv=\""
    ensures CiLiteralAt(s, 0, "<meta") && IsSpace(s[5]) && !IsSpace(s[6])
    ensures CiLiteralAt(s, 6, "http-equiv=") && IsQuote(s[17])
  {
    assert forall k :: 0 <= k < 18 ==> s[k] == s[..18][k];
  }

  lemma TypePiece(s: string)
    requires |s| >= 32 && s[18..32] == "Content-Type\" "
    ensures CiLiteralAt(s, 18, "content-type") && IsQuote(s[30])
  {
    assert forall k :: 18 <= k < 32 ==> s[k] == s[18..32][k - 18];
  }

  lemma NoCloseBefore(s: string)
    requires |s| == 72 && s[18..32] == "Content-Type\" "
    requires s[32..52] == "content=\"text/html; " && s[52..] == "charset=ISO-8859-1\">"
    ensures forall k :: 31 <= k < 71 ==> s[k] != '>'
    ensures s[71] == '>'
  {
    assert s[31] == s[18..32][13];
    assert '>' !in s[32..52] && '>' !in s[52..71];
    forall k | 32 <= k < 71 ensures s[k] != '>' {
      if k < 52 {
        assert s[k] == s[32..52][k - 32];
      } else {
        assert s[k] == s[52..71][k - 52];
      }
    }
    assert s[71] == s[52..][19];
  }

  lemma ExampleHttpEquivToken(t: string)
    requires t == HttpEquivSample()
    ensures FirstCharsetToken(t) == Some("ISO-8859-1")
  {
    TokenAt52(t);
    NoEarlierToken(t);
  }

  /** `charset` cannot start where the text before its `r` lacks an `r`. */
  lemma NoTokenBefore(t: string, p: nat)
    requires p + 3 <= |t| && 'r' !in t[..p + 3]
    ensures forall q :: 0 <= q < p ==> CharsetTokenAt(t, q).None?
  {
    forall q | 0 <= q < p ensures !LiteralAt(t, q, "charset") {
      assert t[..p + 3][q + 3] == t[q + 3];
    }
  }

  lemma TokenAt52(t: string)
    requires t == HttpEquivSample()
    ensures CharsetTokenAt(t, 52) == Some("ISO-8859-1")
  {
    SamplePieces(t);
    TokenInTail(t, 52);
  }

  lemma TokenInTail(t: string, p: nat)
    requires p + 20 == |t| && t[p..] == "charset=ISO-8859-1\">"
    ensures CharsetTokenAt(t, p) == Some("ISO-8859-1")
  {
    var tail := t[p..];
    assert forall k :: 0 <= k < 20 ==> t[p + k] == tail[k];
    assert t[p..p + 7] == tail[..7] == "charset";
    assert t[p + 8..p + 18] == tail[8..18] == "ISO-8859-1";
    assert forall k :: 8 <= k < 18 ==> IsTokenChar(tail[k]);
    ScanStops(t, p + 8, p + 18, c => !IsTokenChar(c));
  }

  lemma NoEarlierToken(t: string)
    requires t == HttpEquivSample()
    ensures forall q :: 0 <= q < 52 ==> CharsetTokenAt(t, q).None?
  {
    assert t[..55] == "<meta http-equiv=\"" + "Content-Type\" " + "content=\"text/html; " + "cha";
    NoTokenBefore(t, 52);
  }
}

=== FILE: orchestrator.dfy ===
/** The `Readability` object: the per-instance artifact cache, the body
    snapshot taken at construction, the content extraction with its relaxed
    retry, the text body, the title, and `close`. The document, the window
    and the `helpers` module are abstract: `Dom` carries them as functions. */
module Orchestrator {
  import opened Wrappers
  import opened Title
  import opened TextJoin

  /** The keys `getContent`, `getTitle` and `getTextBody` cache under. */
  datatype Key = ArticleContent | ArticleTitle | ArticleTextBody

  /** A cached value: a string, or the `false` that `getContent` stores when
      extraction finds no text, which is not the same as "". */
  datatype Artifact = False | Text(text: string)

  /** The foreign code the object calls. `grabArticle` and `getInnerText`
      take their optional second argument as an Option (None when the call
      leaves it out); `grabArticle` also hands back the document as it left
      it, since it edits the document in place. */
  datatype Dom<!D, !N> = Dom(
    prepDocument: D -> D,
    bodyHtml: D -> string,
    setBodyHtml: (D, string) -> D,
    grabArticle: (D, Option<bool>) -> (N, D),
    innerText: (N, Option<bool>) -> string,
    innerHtml: N -> string,
    childNodes: N -> seq<N>,
    metaTags: D -> seq<MetaTag>,
    title: D -> string)

  /** The object's state. `grabs` lists every `grabArticle` call with its
      arguments and `windowCloses` counts `window.close()` calls, so that
      what the object does to its collaborators can be stated. */
  datatype Readability<D> = Readability(
    window: bool,
    document: Option<D>,
    snapshot: string,
    cache: map<Key, Artifact>,
    grabs: seq<(D, Option<bool>)>,
    windowCloses: nat)

  /** A getter's outcome: the value and the state after it, or the TypeError
      thrown when it needs the document after `close` has dropped it. */
  datatype Answer<D> = Answer(value: Artifact, next: Readability<D>) | Threw

  /** The constructor: prepare the document, then snapshot its body. */
  function Create<D, N>(dom: Dom<D, N>, document: D): (r: Readability<D>)
    ensures r.window && r.document.Some? && r.cache == map[] && r.grabs == [] && r.windowCloses == 0
    // The document is the prepared one, and the snapshot is its body.
    ensures r.document == Some(dom.prepDocument(document))
    ensures r.snapshot == dom.bodyHtml(r.document.value)
  {
    var prepared := dom.prepDocument(document);
    Readability(true, Some(prepared), dom.bodyHtml(prepared), map[], [], 0)
  }

  /** `close()`. */
  function Close<D>(r: Readability<D>): (r': Readability<D>)
    ensures !r'.window && r'.document.None?
    // window.close() is called exactly when a window is present.
    ensures r'.windowCloses == r.windowCloses + (if r.window then 1 else 0)
    // The cache is not cleared.
    ensures r'.cache == r.cache && r'.snapshot == r.snapshot && r'.grabs == r.grabs
  {
    Readability(false, None, r.snapshot, r.cache, r.grabs,
                if r.window then r.windowCloses + 1 else r.windowCloses)
  }

  /** `r'` is `r` after one fresh content computation that produced `v`: the
      calls it made, in order, and what it stored. */
  ghost predicate ContentComputed<D, N>(dom: Dom<D, N>, r: Readability<D>, v: Artifact, r': Readability<D>)
    requires r.document.Some?
  {
    && |r.grabs| < |r'.grabs| <= |r.grabs| + 2
    && r'.grabs[..|r.grabs|] == r.grabs
    && var calls := r'.grabs[|r.grabs|..];
    && var first := dom.grabArticle(r.document.value, None);
    // The first call is the plain one, on the live document.
    && calls[0] == (r.document.value, None)
    // A second call happens exactly when the first found no text; it is the
    // relaxed one, on the document with its body restored from the snapshot.
    && (|calls| == 2 <==> dom.innerText(first.0, Some(false)) == "")
    && (|calls| == 2 ==> calls[1] == (dom.setBodyHtml(first.1, r.snapshot), Some(true)))
    && var last := dom.grabArticle(calls[|calls| - 1].0, calls[|calls| - 1].1);
    // False, never "", when the last attempt found no text.
    && (v == False <==> dom.innerText(last.0, Some(false)) == "")
    && (v.Text? ==> v.text == dom.innerHtml(last.0))
    && r' == r.(document := Some(last.1), cache := r.cache[ArticleContent := v], grabs := r'.grabs)
  }

  /** `getContent()`. */
  function GetContent<D, N>(dom: Dom<D, N>, r: Readability<D>): (a: Answer<D>)
    ensures ArticleContent in r.cache ==> a == Answer(r.cache[ArticleContent], r)
    ensures ArticleContent !in r.cache && r.document.None? ==> a.Threw?
    ensures ArticleContent !in r.cache && r.document.Some? ==>
              a.Answer? && ContentComputed(dom, r, a.value, a.next)
  {
    if ArticleContent in r.cache then Answer(r.cache[ArticleContent], r)
    else if r.document.None? then Threw
    else
      var d := r.document.value;
      var first := dom.grabArticle(d, None);
      if dom.innerText(first.0, Some(false)) == "" then
        var restored := dom.setBodyHtml(first.1, r.snapshot);
        var second := dom.grabArticle(restored, Some(true));
        var v := if dom.innerText(second.0, Some(false)) == "" then False else Text(dom.innerHtml(second.0));
        var grabs := r.grabs + [(d, None), (restored, Some(true))];
        assert grabs[|r.grabs|..] == [(d, None), (restored, Some(true))];
        Answer(v, r.(document := Some(second.1), cache := r.cache[ArticleContent := v], grabs := grabs))
      else
        var grabs := r.grabs + [(d, None)];
        assert grabs[|r.grabs|..] == [(d, None)];
        var v := Text(dom.innerHtml(first.0));
        Answer(v, r.(document := Some(first.1), cache := r.cache[ArticleContent := v], grabs := grabs))
  }

  /** `getTitle()`. */
  function GetTitle<D, N>(dom: Dom<D, N>, r: Readability<D>): (a: Answer<D>)
    ensures ArticleTitle in r.cache ==> a == Answer(r.cache[ArticleTitle], r)
    ensures ArticleTitle !in r.cache && r.document.None? ==> a.Threw?
    ensures ArticleTitle !in r.cache && r.document.Some? ==>
              var candidate := Candidate(dom.metaTags(r.document.value), dom.title(r.document.value));
              && a.Answer? && a.value.Text?
              && (a.value.text == candidate
                  || exists k :: 0 <= k < |Separators| && Proposal(candidate, Separators[k]) == Some(a.value.text))
              && a.next == r.(cache := r.cache[ArticleTitle := a.value])
  {
    if ArticleTitle in r.cache then Answer(r.cache[ArticleTitle], r)
    else if r.document.None? then Threw
    else
      var d := r.document.value;
      var v := Text(ChooseTitle(Candidate(dom.metaTags(d), dom.title(d))));
      Answer(v, r.(cache := r.cache[ArticleTitle := v]))
  }

  /** The texts of the children of the article's first child, or None when
      the article has no children (`rootElement` is undefined). */
  function ChildTexts<D, N>(dom: Dom<D, N>, article: N): (texts: Option<seq<string>>)
    ensures texts.None? <==> |dom.childNodes(article)| == 0
    ensures texts.Some? ==> |texts.value| == |dom.childNodes(dom.childNodes(article)[0])|
    // Text `i` is `getInnerText` of child `i`, called without its second
    // argument.
    ensures texts.Some? ==> forall i :: 0 <= i < |texts.value| ==>
              texts.value[i] == dom.innerText(dom.childNodes(dom.childNodes(article)[0])[i], None)
  {
    var roots := dom.childNodes(article);
    if |roots| == 0 then None
    else
      var children := dom.childNodes(roots[0]);
      Some(seq(|children|, i requires 0 <= i < |children| => dom.innerText(children[i], None)))
  }

  /** `getTextBody()`. */
  function GetTextBody<D, N>(dom: Dom<D, N>, r: Readability<D>): (a: Answer<D>)
    ensures ArticleTextBody in r.cache ==> a == Answer(r.cache[ArticleTextBody], r)
    ensures ArticleTextBody !in r.cache && r.document.None? ==> a.Threw?
    // A fresh computation calls grabArticle once more, whatever the content
    // cache holds, and stores a string.
    ensures ArticleTextBody !in r.cache && r.document.Some? ==>
              var article := dom.grabArticle(r.document.value, None);
              && a.Answer?
              // Only the document, the cache and the call log change.
              && a.next == r.(document := Some(article.1), cache := r.cache[ArticleTextBody := a.value],
                              grabs := r.grabs + [(r.document.value, None)])
              && a.value.Text?
              && (ChildTexts(dom, article.0).None? ==> a.value.text == "")
              && (ChildTexts(dom, article.0).Some? ==> a.value.text == TextBody(ChildTexts(dom, article.0).value))
  {
    if ArticleTextBody in r.cache then Answer(r.cache[ArticleTextBody], r)
    else if r.document.None? then Threw
    else
      var d := r.document.value;
      var article := dom.grabArticle(d, None);
      var body := match ChildTexts(dom, article.0) case None => "" case Some(texts) => TextBody(texts);
      var v := Text(body);
      Answer(v, r.(document := Some(article.1), cache := r.cache[ArticleTextBody := v], grabs := r.grabs + [(d, None)]))
  }

  /** `close()` is idempotent: a second call changes nothing and does not
      call window.close() again. */
  lemma CloseIdempotent<D>(r: Readability<D>)
    ensures Close(Close(r)) == Close(r)
    ensures Close(Close(r)).windowCloses <= r.windowCloses + 1
  {
  }

  /** Once computed, the content is read from the cache: a second read gives
      the same value, leaves the state alone and calls grabArticle no more. */
  lemma ContentReadOnce<D, N>(dom: Dom<D, N>, r: Readability<D>)
    requires GetContent(dom, r).Answer?
    ensures var a := GetContent(dom, r);
      GetContent(dom, a.next) == Answer(a.value, a.next)
  {
  }

  /** Once computed, the title is read from the cache. */
  lemma TitleReadOnce<D, N>(dom: Dom<D, N>, r: Readability<D>)
    requires GetTitle(dom, r).Answer?
    ensures var a := GetTitle(dom, r);
      GetTitle(dom, a.next) == Answer(a.value, a.next)
  {
  }

  /** The content is False exactly when the plain attempt and the relaxed
      retry on the restored body both found no text; otherwise it is the
      markup of whichever attempt found text. */
  lemma ContentFallback<D, N>(dom: Dom<D, N>, r: Readability<D>)
    requires ArticleContent !in r.cache && r.document.Some?
    ensures var first := dom.grabArticle(r.document.value, None);
      var second := dom.grabArticle(dom.setBodyHtml(first.1, r.snapshot), Some(true));
      var a := GetContent(dom, r);
      && a.Answer?
      && (a.value == False <==>
            dom.innerText(first.0, Some(false)) == "" && dom.innerText(second.0, Some(false)) == "")
      && (dom.innerText(first.0, Some(false)) != "" ==> a.value == Text(dom.innerHtml(first.0)))
      && (dom.innerText(first.0, Some(false)) == "" && dom.innerText(second.0, Some(false)) != "" ==>
            a.value == Text(dom.innerHtml(second.0)))
  {
    var a := GetContent(dom, r);
    var calls := a.next.grabs[|r.grabs|..];
    var first := dom.grabArticle(r.document.value, None);
    assert calls[0] == (r.document.value, None);
    if dom.innerText(first.0, Some(false)) == "" {
      assert |calls| == 2;
    } else {
      assert |calls| == 1;
    }
  }

  /** Cached values stay readable after `close`; anything not yet cached
      throws, because the document is gone. */
  lemma ReadAfterClose<D, N>(dom: Dom<D, N>, r: Readability<D>)
    ensures ArticleContent in r.cache ==> GetContent(dom, Close(r)) == Answer(r.cache[ArticleContent], Close(r))
    ensures ArticleContent !in r.cache ==> GetContent(dom, Close(r)).Threw?
    ensures ArticleTitle in r.cache ==> GetTitle(dom, Close(r)) == Answer(r.cache[ArticleTitle], Close(r))
    ensures ArticleTitle !in r.cache ==> GetTitle(dom, Close(r)).Threw?
    ensures ArticleTextBody in r.cache ==> GetTextBody(dom, Close(r)) == Answer(r.cache[ArticleTextBody], Close(r))
    ensures ArticleTextBody !in r.cache ==> GetTextBody(dom, Close(r)).Threw?
  {
  }

  /** `getTextBody` runs its own grabArticle even when the content is
      already cached: it never reads the content cache. */
  lemma TextBodyGrabsAgain<D, N>(dom: Dom<D, N>, r: Readability<D>)
    requires ArticleContent in r.cache && ArticleTextBody !in r.cache && r.document.Some?
    ensures GetTextBody(dom, r).Answer?
    ensures |GetTextBody(dom, r).next.grabs| == |r.grabs| + 1
  {
  }

  /** The public operations of the object. */
  datatype Op = ReadContent | ReadTitle | ReadTextBody | CloseReader

  /** One operation; None when it throws. */
  function Apply<D, N>(dom: Dom<D, N>, r: Readability<D>, op: Op): Option<Readability<D>> {
    match op
    case ReadContent => (var a := GetContent(dom, r); if a.Threw? then None else Some(a.next))
    case ReadTitle => (var a := GetTitle(dom, r); if a.Threw? then None else Some(a.next))
    case ReadTextBody => (var a := GetTextBody(dom, r); if a.Threw? then None else Some(a.next))
    case CloseReader => Some(Close(r))
  }

  /** A sequence of operations, stopping at the first that throws. */
  function Run<D, N>(dom: Dom<D, N>, r: Readability<D>, ops: seq<Op>): Option<Readability<D>>
    decreases |ops|
  {
    if |ops| == 0 then Some(r)
    else match Apply(dom, r, ops[0])
      case None => None
      case Some(r') => Run(dom, r', ops[1..])
  }

  /** Every key of `c` is still in `c'` with the same value. */
  ghost predicate Keeps(c: map<Key, Artifact>, c': map<Key, Artifact>) {
    forall k :: k in c ==> k in c' && c'[k] == c[k]
  }

  /** The cache is write-once: whatever sequence of operations runs, no
      cached value is ever removed or changed, and the snapshot stays. */
  lemma {:induction false} CacheWriteOnce<D, N>(dom: Dom<D, N>, r: Readability<D>, ops: seq<Op>)
    ensures Run(dom, r, ops).Some? ==>
              Keeps(r.cache, Run(dom, r, ops).value.cache) && Run(dom, r, ops).value.snapshot == r.snapshot
    decreases |ops|
  {
    if |ops| > 0 {
      match Apply(dom, r, ops[0])
      case None =>
      case Some(r') =>
        ApplyKeeps(dom, r, ops[0]);
        CacheWriteOnce(dom, r', ops[1..]);
    }
  }

  /** One operation keeps every cached value and the snapshot. */
  lemma ApplyKeeps<D, N>(dom: Dom<D, N>, r: Readability<D>, op: Op)
    ensures Apply(dom, r, op).Some? ==>
              Keeps(r.cache, Apply(dom, r, op).value.cache) && Apply(dom, r, op).value.snapshot == r.snapshot
  {
    match op
    case ReadContent =>
    case ReadTitle =>
    case ReadTextBody =>
    case CloseReader =>
  }

  /** Once the window is closed it is never closed again, whatever follows. */
  lemma {:induction false} WindowClosedOnce<D, N>(dom: Dom<D, N>, r: Readability<D>, ops: seq<Op>)
    requires !r.window
    ensures Run(dom, r, ops).Some? ==>
              !Run(dom, r, ops).value.window && Run(dom, r, ops).value.windowCloses == r.windowCloses
    decreases |ops|
  {
    if |ops| > 0 {
      match Apply(dom, r, ops[0])
      case None =>
      case Some(r') =>
        WindowClosedOnce(dom, r', ops[1..]);
    }
  }
}

=== FILE: strings.dfy ===
/** String primitives with the meaning the JavaScript runtime gives them:
    `trim`, ASCII `toLowerCase`, `indexOf`, `split` on one character, and
    the UTF-16 `length`. Strings are sequences of Unicode scalar values. */
module Strings {
  import opened Wrappers

  /** ECMAScript WhiteSpace and LineTerminator: what `String.prototype.trim`
      removes and what the regular-expression class `\s` matches. */
  predicate IsSpace(c: char) {
    var n := c as int;
    n == 0x09 || n == 0x0A || n == 0x0B || n == 0x0C || n == 0x0D || n == 0x20
    || n == 0xA0 || n == 0x1680 || (0x2000 <= n <= 0x200A) || n == 0x2028
    || n == 0x2029 || n == 0x202F || n == 0x205F || n == 0x3000 || n == 0xFEFF
  }

  /** The characters the regular-expression `.` does not match. */
  predicate IsLineTerminator(c: char) {
    c == '\n' || c == '\r' || c as int == 0x2028 || c as int == 0x2029
  }

  /** Neither end of `s` is whitespace: `s` is its own trim. */
  predicate IsTrimmed(s: string) {
    s == [] || (!IsSpace(s[0]) && !IsSpace(s[|s| - 1]))
  }

  /** The first index at or after `i` that is not whitespace. */
  function SpanStart(s: string, i: nat): (n: nat)
    requires i <= |s|
    ensures i <= n <= |s|
    ensures forall k :: i <= k < n ==> IsSpace(s[k])
    ensures n < |s| ==> !IsSpace(s[n])
    decreases |s| - i
  {
    if i < |s| && IsSpace(s[i]) then SpanStart(s, i + 1) else i
  }

  /** The end of `s[lo..j]` once its trailing whitespace is dropped. */
  function SpanEnd(s: string, lo: nat, j: nat): (m: nat)
    requires lo <= j <= |s|
    ensures lo <= m <= j
    ensures forall k :: m <= k < j ==> IsSpace(s[k])
    ensures m > lo ==> !IsSpace(s[m - 1])
    decreases j
  {
    if j > lo && IsSpace(s[j - 1]) then SpanEnd(s, lo, j - 1) else j
  }

  /** `String.prototype.trim`: the infix of `s` left after removing leading
      and trailing whitespace. */
  function Trim(s: string): (r: string)
    ensures IsTrimmed(r)
    ensures var i := SpanStart(s, 0);
      i + |r| <= |s| && r == s[i..i + |r|]
      && (forall k :: 0 <= k < i ==> IsSpace(s[k]))
      && (forall k :: i + |r| <= k < |s| ==> IsSpace(s[k]))
  {
    var n := SpanStart(s, 0);
    var m := SpanEnd(s, n, |s|);
    s[n..m]
  }

  /** `"UTF-8".trim().toLowerCase()` is `utf-8`. */
  lemma DefaultLabel()
    ensures Lower(Trim("UTF-8")) == "utf-8"
  {
    var u := "UTF-8";
    assert IsTrimmed(u);
    TrimOfTrimmed(u);
    var l := Lower(u);
    assert l[0] == 'u' && l[1] == 't' && l[2] == 'f' && l[3] == '-' && l[4] == '8';
  }

  /** `"utf-8"` is already a normal label. */
  lemma Utf8Normal()
    ensures IsNormal("utf-8") && Lower(Trim("utf-8")) == "utf-8"
  {
    var u := "utf-8";
    assert IsTrimmed(u);
    TrimOfTrimmed(u);
    var l := Lower(u);
    assert l[0] == 'u' && l[1] == 't' && l[2] == 'f' && l[3] == '-' && l[4] == '8';
  }

  lemma TrimOfTrimmed(s: string)
    requires IsTrimmed(s)
    ensures Trim(s) == s
  {
  }

  /** One trailing blank goes, the rest of a trimmed, non-empty text stays. */
  lemma TrimTrailingBlank(s: string)
    requires s != [] && IsTrimmed(s)
    ensures Trim(s + " ") == s
  {
    var t := s + " ";
    assert t[0] == s[0] && t[|s| - 1] == s[|s| - 1];
    assert SpanStart(t, 0) == 0;
    assert SpanEnd(t, 0, |t|) == SpanEnd(t, 0, |s|) == |s|;
    assert t[..|s|] == s;
  }

  function LowerChar(c: char): (d: char)
    ensures IsSpace(d) <==> IsSpace(c)
  {
    if 'A' <= c <= 'Z' then (c as int + 32) as char else c
  }

  /** `String.prototype.toLowerCase`, restricted to the ASCII letters. */
  function Lower(s: string): (r: string)
    ensures |r| == |s|
    ensures forall i :: 0 <= i < |s| ==> r[i] == LowerChar(s[i])
  {
    seq(|s|, i requires 0 <= i < |s| => LowerChar(s[i]))
  }

  /** Text without upper-case ASCII letters is its own lower case. */
  lemma LowerOfLower(s: string)
    requires forall i :: 0 <= i < |s| ==> !('A' <= s[i] <= 'Z')
    ensures Lower(s) == s
  {
  }

  /** A charset or mime label in the form the original code stores:
      trimmed and lower-cased. */
  predicate IsNormal(s: string) {
    IsTrimmed(s) && Lower(s) == s
  }

  /** Trimming then lower-casing yields a normal label, whatever the input. */
  lemma NormalizeIsNormal(s: string)
    ensures IsNormal(Lower(Trim(s)))
  {
    var t := Trim(s);
    var l := Lower(t);
    LowerKeepsTrimmed(t);
    LowerIdempotent(t);
  }

  lemma LowerKeepsTrimmed(t: string)
    requires IsTrimmed(t)
    ensures IsTrimmed(Lower(t))
  {
    var l := Lower(t);
    if l != [] {
      assert l[0] == LowerChar(t[0]);
      assert l[|l| - 1] == LowerChar(t[|t| - 1]);
    }
  }

  /** `trim` and the ASCII `toLowerCase` commute: lower-casing neither
      creates nor removes whitespace. */
  lemma TrimLower(s: string)
    ensures Trim(Lower(s)) == Lower(Trim(s))
  {
    var l := Lower(s);
    SpanStartLower(s, 0);
    var n := SpanStart(s, 0);
    SpanEndLower(s, n, |s|);
    var m := SpanEnd(s, n, |s|);
    assert Trim(s) == s[n..m];
    assert Trim(l) == l[n..m];
    LowerSlice(s, n, m);
  }

  lemma LowerSlice(s: string, n: nat, m: nat)
    requires n <= m <= |s|
    ensures Lower(s[n..m]) == Lower(s)[n..m]
  {
    assert forall k :: 0 <= k < m - n ==> Lower(s)[n..m][k] == LowerChar(s[n..m][k]);
  }

  lemma {:induction false} SpanStartLower(s: string, i: nat)
    requires i <= |s|
    ensures SpanStart(Lower(s), i) == SpanStart(s, i)
    decreases |s| - i
  {
    if i < |s| && IsSpace(s[i]) {
      SpanStartLower(s, i + 1);
    }
  }

  lemma {:induction false} SpanEndLower(s: string, lo: nat, j: nat)
    requires lo <= j <= |s|
    ensures SpanEnd(Lower(s), lo, j) == SpanEnd(s, lo, j)
    decreases j
  {
    if j > lo && IsSpace(s[j - 1]) {
      SpanEndLower(s, lo, j - 1);
    }
  }

  /** Whitespace around a text does not change its trim. */
  lemma TrimPadded(a: string, t: string, b: string)
    requires forall k :: 0 <= k < |a| ==> IsSpace(a[k])
    requires forall k :: 0 <= k < |b| ==> IsSpace(b[k])
    ensures Trim(a + t + b) == Trim(t)
  {
    var r := Trim(t);
    var a', b' := TrimMargins(a, t, b);
    if r == [] {
      AllSpaceTrim(a' + b');
      assert a' + r + b' == a' + b';
    } else {
      TrimUnique(a', r, b');
    }
  }

  /** A padded text is its trim between two (wider) margins of whitespace. */
  lemma TrimMargins(a: string, t: string, b: string) returns (a': string, b': string)
    requires forall k :: 0 <= k < |a| ==> IsSpace(a[k])
    requires forall k :: 0 <= k < |b| ==> IsSpace(b[k])
    ensures a + t + b == a' + Trim(t) + b'
    ensures forall k :: 0 <= k < |a'| ==> IsSpace(a'[k])
    ensures forall k :: 0 <= k < |b'| ==> IsSpace(b'[k])
  {
    var i := SpanStart(t, 0);
    a', b' := a + t[..i], t[i + |Trim(t)|..] + b;
    LeadingMargin(a, t);
    TrailingMargin(t, b);
    TrimInfix(t);
    Regroup(a, t[..i], Trim(t), t[i + |Trim(t)|..], b);
  }

  /** Concatenation regrouped. */
  lemma Regroup(a: string, x: string, y: string, z: string, b: string)
    ensures a + (x + y + z) + b == (a + x) + y + (z + b)
  {
  }

  /** Whitespace followed by what `trim` drops at the front is whitespace. */
  lemma LeadingMargin(a: string, t: string)
    requires forall k :: 0 <= k < |a| ==> IsSpace(a[k])
    ensures var a' := a + t[..SpanStart(t, 0)]; forall k :: 0 <= k < |a'| ==> IsSpace(a'[k])
  {
  }

  /** What `trim` drops at the back followed by whitespace is whitespace. */
  lemma TrailingMargin(t: string, b: string)
    requires forall k :: 0 <= k < |b| ==> IsSpace(b[k])
    ensures var b' := t[SpanStart(t, 0) + |Trim(t)|..] + b; forall k :: 0 <= k < |b'| ==> IsSpace(b'[k])
  {
  }

  /** The trim sits between the two margins `trim` drops. */
  lemma TrimInfix(t: string)
    ensures t == t[..SpanStart(t, 0)] + Trim(t) + t[SpanStart(t, 0) + |Trim(t)|..]
  {
  }

  /** A text of whitespace only trims to the empty text. */
  lemma AllSpaceTrim(s: string)
    requires forall k :: 0 <= k < |s| ==> IsSpace(s[k])
    ensures Trim(s) == []
  {
  }

  /** A non-empty trimmed text with whitespace margins is the trim. */
  lemma TrimUnique(a: string, r: string, b: string)
    requires r != [] && IsTrimmed(r)
    requires forall k :: 0 <= k < |a| ==> IsSpace(a[k])
    requires forall k :: 0 <= k < |b| ==> IsSpace(b[k])
    ensures Trim(a + r + b) == r
  {
    var s := a + r + b;
    assert s[|a|] == r[0];
    assert forall k :: 0 <= k < |a| ==> s[k] == a[k];
    var i := SpanStart(s, 0);
    assert i == |a|;
    var t := Trim(s);
    assert s[|a| + |r| - 1] == r[|r| - 1];
    assert forall k :: |a| + |r| <= k < |s| ==> s[k] == b[k - |a| - |r|];
    assert |t| == |r|;
    assert s[|a|..|a| + |r|] == r;
  }

  lemma LowerIdempotent(s: string)
    ensures Lower(Lower(s)) == Lower(s)
  {
    var l := Lower(s);
    var ll := Lower(l);
    assert forall i :: 0 <= i < |s| ==> ll[i] == l[i];
  }

  /** The first position of `c` in `s` (`indexOf` with -1 as None). */
  function IndexOf(s: string, c: char): (r: Option<nat>)
    ensures r.Some? ==> r.value < |s| && s[r.value] == c && c !in s[..r.value]
    ensures r.None? <==> c !in s
  {
    if |s| == 0 then None
    else if s[0] == c then Some(0)
    else match IndexOf(s[1..], c)
      case None => None
      case Some(i) => assert s[..i + 1] == [s[0]] + s[1..][..i]; Some(i + 1)
  }

  /** The inverse of `split`: the pieces glued back with `c`. */
  function JoinWith(parts: seq<string>, c: char): string {
    if |parts| == 0 then ""
    else if |parts| == 1 then parts[0]
    else parts[0] + [c] + JoinWith(parts[1..], c)
  }

  /** `s.split(c)` for a one-character separator. */
  function Split(s: string, c: char): (parts: seq<string>)
    ensures |parts| >= 1
    ensures forall i :: 0 <= i < |parts| ==> c !in parts[i]
    ensures JoinWith(parts, c) == s
    ensures c in s <==> |parts| > 1
    decreases |s|
  {
    match IndexOf(s, c)
    case None => [s]
    case Some(i) =>
      var rest := Split(s[i + 1..], c);
      assert s == s[..i] + [c] + s[i + 1..];
      [s[..i]] + rest
  }

  /** `split` undoes `JoinWith` when no piece holds the separator. */
  lemma {:induction false} SplitJoinWith(parts: seq<string>, c: char)
    requires |parts| >= 1
    requires forall i :: 0 <= i < |parts| ==> c !in parts[i]
    ensures Split(JoinWith(parts, c), c) == parts
    decreases |parts|
  {
    if |parts| > 1 {
      SplitCons(parts[0], c, JoinWith(parts[1..], c));
      SplitJoinWith(parts[1..], c);
      assert parts == [parts[0]] + parts[1..];
    }
  }

  /** Splitting a piece free of `c`, then `c`, then the rest. */
  lemma SplitCons(a: string, c: char, rest: string)
    requires c !in a
    ensures Split(a + [c] + rest, c) == [a] + Split(rest, c)
  {
    var s := a + [c] + rest;
    assert s[..|a|] == a;
    assert s[|a| + 1..] == rest;
    assert s[|a|] == c;
    assert forall k :: 0 <= k < |a| ==> s[k] == a[k];
    assert IndexOf(s, c) == Some(|a|);
    assert Split(s, c) == [s[..|a|]] + Split(s[|a| + 1..], c);
  }

  /** The first piece of `s.split(c)` is a prefix of `s` followed by `c`, or
      the whole of `s` when it is the only piece. */
  lemma SplitHead(s: string, c: char)
    ensures var parts := Split(s, c);
      && |parts[0]| <= |s| && s[..|parts[0]|] == parts[0]
      && (|parts| > 1 ==> |parts[0]| < |s| && s[|parts[0]|] == c)
      && (|parts| == 1 ==> parts[0] == s)
  {
    var parts := Split(s, c);
    if |parts| > 1 {
      assert s == parts[0] + [c] + JoinWith(parts[1..], c);
      assert s[..|parts[0]|] == parts[0];
    }
  }

  /** Splitting at the first `c`: the first piece, then the split of what
      follows it. */
  lemma SplitAtFirst(s: string, c: char, i: nat)
    requires i < |s| && s[i] == c && c !in s[..i]
    ensures Split(s, c) == [s[..i]] + Split(s[i + 1..], c)
  {
    assert IndexOf(s, c) == Some(i);
  }

  /** The first piece of `s.split(c)` is everything before the first `c`. */
  lemma SplitFirstPiece(s: string, c: char, i: nat)
    requires i < |s| && s[i] == c && c !in s[..i]
    ensures Split(s, c)[0] == s[..i]
  {
  }

  predicate OccursAt(s: string, pat: string, i: nat) {
    i + |pat| <= |s| && s[i..i + |pat|] == pat
  }

  /** The leftmost occurrence of `pat` in `s` at or after `from`. */
  function FindFrom(s: string, pat: string, from: nat): (r: Option<nat>)
    ensures r.Some? ==> from <= r.value && OccursAt(s, pat, r.value)
    ensures r.Some? ==> forall j :: from <= j < r.value ==> !OccursAt(s, pat, j)
    ensures r.None? ==> forall j :: from <= j ==> !OccursAt(s, pat, j)
    decreases |s| - from
  {
    if from + |pat| > |s| then None
    else if OccursAt(s, pat, from) then Some(from)
    else FindFrom(s, pat, from + 1)
  }

  /** A pattern holding a character the text lacks never occurs. */
  lemma AbsentPattern(s: string, pat: string, m: nat)
    requires m < |pat| && pat[m] !in s
    ensures FindFrom(s, pat, 0).None?
  {
  }

  /** An occurrence is the first one when character `m` of the pattern does
      not appear earlier in the text than it does in that occurrence. */
  lemma FirstOccurrence(s: string, pat: string, i: nat, m: nat)
    requires OccursAt(s, pat, i) && m < |pat| && pat[m] !in s[..i + m]
    ensures FindFrom(s, pat, 0) == Some(i)
  {
  }

  /** The length JavaScript reports: UTF-16 code units, two for each
      character outside the Basic Multilingual Plane. */
  function Utf16Length(s: string): (n: nat)
    ensures |s| <= n <= 2 * |s|
    // Text inside the Basic Multilingual Plane has one unit per character.
    ensures (forall i :: 0 <= i < |s| ==> (s[i] as int) < 0x10000) ==> n == |s|
    // One character is one unit, or a surrogate pair.
    ensures |s| == 1 ==> n == (if s[0] as int < 0x10000 then 1 else 2)
  {
    if |s| == 0 then 0
    else (if s[0] as int >= 0x10000 then 2 else 1) + Utf16Length(s[1..])
  }

  /** The UTF-16 length of a concatenation is the sum of the lengths; with
      the one-character case this fixes the length of every text. */
  lemma {:induction false} Utf16Append(a: string, b: string)
    ensures Utf16Length(a + b) == Utf16Length(a) + Utf16Length(b)
    decreases |a|
  {
    if |a| > 0 {
      assert (a + b)[1..] == a[1..] + b;
      assert (a + b)[0] == a[0];
      Utf16Append(a[1..], b);
    } else {
      assert a + b == b;
    }
  }
}

=== FILE: text_body.dfy ===
/** The text-body join of `getTextBody`: the texts of the root element's
    children glued into one string. */
module TextJoin {

  /** The loop's result: each non-empty text is followed by a newline unless
      it belongs to the last child. */
  function TextBody(texts: seq<string>): (body: string)
    // The body is empty exactly when every child text is; its full shape is
    // stated by `TextBodyShape`.
    ensures body == "" <==> forall k :: 0 <= k < |texts| ==> texts[k] == ""
    decreases |texts|
  {
    if |texts| == 0 then ""
    else if |texts| == 1 then texts[0]
    else
      var body := (if texts[0] == "" then "" else texts[0] + "\n") + TextBody(texts[1..]);
      assert forall k :: 0 < k < |texts| ==> texts[k] == texts[1..][k - 1];
      body
  }

  /** The loop at the heart of `getTextBody`, as written. */
  method JoinChildTexts(texts: seq<string>) returns (body: string)
    ensures body == TextBody(texts)
  {
    body := "";
    var i := 0;
    while i < |texts|
      invariant 0 <= i <= |texts|
      invariant body + TextBody(texts[i..]) == TextBody(texts)
    {
      var text := texts[i];
      assert texts[i..][1..] == texts[i + 1..];
      if text == "" {
        i := i + 1;
        continue;
      }
      body := body + text;
      if i + 1 < |texts| {
        body := body + "\n";
      }
      i := i + 1;
    }
    assert texts[i..] == [];
  }

  /** The non-empty texts, in order. */
  function NonEmpty(texts: seq<string>): (r: seq<string>)
    ensures |r| <= |texts|
    ensures forall k :: 0 <= k < |r| ==> r[k] != ""
  {
    if |texts| == 0 then []
    else (if texts[0] == "" then [] else [texts[0]]) + NonEmpty(texts[1..])
  }

  /** Lines joined with single newlines. */
  function JoinLines(lines: seq<string>): string {
    if |lines| == 0 then ""
    else if |lines| == 1 then lines[0]
    else lines[0] + "\n" + JoinLines(lines[1..])
  }

  lemma {:induction false} AllEmpty(texts: seq<string>)
    requires NonEmpty(texts) == []
    ensures forall k :: 0 <= k < |texts| ==> texts[k] == ""
    ensures TextBody(texts) == ""
    decreases |texts|
  {
    if |texts| > 0 {
      assert texts[0] == "";
      AllEmpty(texts[1..]);
      assert forall k :: 0 < k < |texts| ==> texts[k] == texts[1..][k - 1];
    }
  }

  /** The shape of the text body: the non-empty texts joined by single
      newlines, plus one trailing newline when the last child's text is
      empty and some earlier one is not. */
  lemma {:induction false} TextBodyShape(texts: seq<string>)
    ensures TextBody(texts) == JoinLines(NonEmpty(texts))
              + (if |texts| > 0 && texts[|texts| - 1] == "" && NonEmpty(texts) != [] then "\n" else "")
    decreases |texts|
  {
    if |texts| >= 2 {
      var rest := texts[1..];
      TextBodyShape(rest);
      assert rest[|rest| - 1] == texts[|texts| - 1];
      assert TextBody(texts) == (if texts[0] == "" then "" else texts[0] + "\n") + TextBody(rest);
      if texts[0] == "" {
        assert NonEmpty(texts) == NonEmpty(rest);
      } else {
        var ne := NonEmpty(rest);
        assert NonEmpty(texts) == [texts[0]] + ne;
        JoinLinesCons(texts[0], ne);
        if ne == [] {
          AllEmpty(rest);
          assert rest[|rest| - 1] == "";
        }
      }
    }
  }

  lemma JoinLinesCons(line: string, lines: seq<string>)
    ensures JoinLines([line] + lines) == if lines == [] then line else line + "\n" + JoinLines(lines)
  {
    assert ([line] + lines)[1..] == lines;
  }

  /** ["A", "", "B"] gives "A\nB"; ["A", ""] gives "A\n". */
  lemma ExampleTexts()
    ensures TextBody(["A", "", "B"]) == "A\nB"
    ensures TextBody(["A", ""]) == "A\n"
  {
  }
}

=== FILE: title.dfy ===
/** The title heuristic (`_findMetaTitle` and the computation in
    `getTitle`). */
module Title {
  import opened Wrappers
  import opened Strings

  /** The attributes of a `<meta>` element that the heuristic reads;
      `getAttribute` gives null (None) for a missing attribute. */
  datatype MetaTag = MetaTag(property: Option<string>, name: Option<string>, content: Option<string>)

  predicate IsTitleTag(tag: MetaTag) {
    tag.property == Some("og:title") || tag.name == Some("twitter:title")
  }

  /** `_findMetaTitle(document)`: the `content` of the first title tag in
      document order, null when there is none. */
  function FindMetaTitle(tags: seq<MetaTag>): (r: Option<string>)
    ensures forall i :: (0 <= i < |tags| && IsTitleTag(tags[i])
              && forall j :: 0 <= j < i ==> !IsTitleTag(tags[j])) ==> r == tags[i].content
    ensures (forall i :: 0 <= i < |tags| ==> !IsTitleTag(tags[i])) ==> r.None?
  {
    if |tags| == 0 then None
    else if IsTitleTag(tags[0]) then tags[0].content
    else
      var r := FindMetaTitle(tags[1..]);
      assert forall i :: 0 < i < |tags| ==> tags[1..][i - 1] == tags[i];
      r
  }

  /** `_findMetaTitle(document) || document.title`. */
  function Candidate(tags: seq<MetaTag>, documentTitle: string): (c: string)
    ensures Truthy(FindMetaTitle(tags)) ==> c == FindMetaTitle(tags).value
    ensures !Truthy(FindMetaTitle(tags)) ==> c == documentTitle
  {
    Or(FindMetaTitle(tags), Some(documentTitle)).value
  }

  /** `commonSeparatingCharacters`, in the order they are tried. */
  const Separators: seq<string> := [" | ", " _ ", " - ", "«", "»", "—"]

  /** What separator `sep` proposes: when it occurs in `title` (so that
      `split` gives more than one piece), the trimmed text before its first
      occurrence. */
  function Proposal(title: string, sep: string): (r: Option<string>)
    ensures r.Some? ==> IsTrimmed(r.value)
    ensures r.Some? <==> exists i :: OccursAt(title, sep, i)
    // The proposal is `tmpArray[0].trim()`: the text before the first
    // occurrence, trimmed.
    ensures r.Some? ==> exists i: nat :: (OccursAt(title, sep, i)
              && (forall j: nat :: j < i ==> !OccursAt(title, sep, j))
              && r.value == Trim(title[..i]))
  {
    match FindFrom(title, sep, 0)
    case None => None
    case Some(i) => Some(Trim(title[..i]))
  }

  /** The `forEach` over the separators. `better` is `betterTitle`, with ""
      standing for every falsy value: a matching separator sets it only
      while it is falsy, and the early `return` inside the callback leaves
      it untouched and lets the loop go on. */
  function Refine(title: string, seps: seq<string>, better: string): (r: string)
    // Whatever the loop ends with is the starting value or some separator's
    // proposal.
    ensures r == better || exists k :: 0 <= k < |seps| && Proposal(title, seps[k]) == Some(r)
    decreases |seps|
  {
    if |seps| == 0 then better
    else
      var better' :=
        match Proposal(title, seps[0])
        case None => better
        case Some(p) => if better != "" then better else p;
      var r := Refine(title, seps[1..], better');
      assert forall k :: 0 <= k < |seps| - 1 ==> seps[1..][k] == seps[k + 1];
      assert r == better' ==> r == better || Proposal(title, seps[0]) == Some(r);
      r
  }

  /** Separator `k` is the first, in list order, whose proposal is non-empty. */
  ghost predicate FirstProposal(title: string, seps: seq<string>, k: int) {
    0 <= k < |seps| && Truthy(Proposal(title, seps[k]))
    && forall j :: 0 <= j < k ==> !Truthy(Proposal(title, seps[j]))
  }

  /** Once `betterTitle` is truthy no later separator changes it. */
  lemma {:induction false} RefineKeepsBetter(title: string, seps: seq<string>, better: string)
    requires better != ""
    ensures Refine(title, seps, better) == better
    decreases |seps|
  {
    if |seps| > 0 {
      RefineKeepsBetter(title, seps[1..], better);
    }
  }

  /** Starting from a falsy `betterTitle`, the loop ends with the first
      non-empty proposal. */
  lemma {:induction false} RefineFirst(title: string, seps: seq<string>, k: int)
    requires FirstProposal(title, seps, k)
    ensures Refine(title, seps, "") == Proposal(title, seps[k]).value
    decreases |seps|
  {
    if k == 0 {
      RefineKeepsBetter(title, seps[1..], Proposal(title, seps[0]).value);
    } else {
      assert FirstProposal(title, seps[1..], k - 1) by {
        assert seps[1..][k - 1] == seps[k];
        forall j | 0 <= j < k - 1 ensures !Truthy(Proposal(title, seps[1..][j])) {
          assert seps[1..][j] == seps[j + 1];
        }
      }
      RefineSkips(title, seps);
      RefineFirst(title, seps[1..], k - 1);
    }
  }

  /** A separator without a non-empty proposal leaves a falsy `betterTitle`
      falsy. */
  lemma RefineSkips(title: string, seps: seq<string>)
    requires |seps| > 0 && !Truthy(Proposal(title, seps[0]))
    ensures Refine(title, seps, "") == Refine(title, seps[1..], "")
  {
  }

  /** With no non-empty proposal the loop leaves `betterTitle` falsy. */
  lemma {:induction false} RefineNoProposal(title: string, seps: seq<string>)
    requires forall k :: 0 <= k < |seps| ==> !Truthy(Proposal(title, seps[k]))
    ensures Refine(title, seps, "") == ""
    decreases |seps|
  {
    if |seps| > 0 {
      assert forall k :: 0 <= k < |seps| - 1 ==> seps[1..][k] == seps[k + 1];
      RefineNoProposal(title, seps[1..]);
    }
  }

  /** `getTitle` on a candidate: the refined title when it is truthy and
      longer than ten UTF-16 code units, the candidate otherwise. */
  function ChooseTitle(candidate: string): (t: string)
    ensures t == candidate
            || (Utf16Length(t) > 10
                && exists k :: 0 <= k < |Separators| && Proposal(candidate, Separators[k]) == Some(t))
  {
    var better := Refine(candidate, Separators, "");
    if better != "" && Utf16Length(better) > 10 then better else candidate
  }

  /** The heuristic in full: the first separator (in list order) whose trimmed
      prefix is non-empty decides, and its prefix is taken only when longer
      than ten UTF-16 code units; with no such separator the candidate stands. */
  lemma TitleRule(candidate: string)
    ensures forall k :: FirstProposal(candidate, Separators, k) ==>
              var p := Proposal(candidate, Separators[k]).value;
              ChooseTitle(candidate) == if Utf16Length(p) > 10 then p else candidate
    ensures (forall k :: 0 <= k < |Separators| ==> !Truthy(Proposal(candidate, Separators[k]))) ==>
              ChooseTitle(candidate) == candidate
  {
    forall k | FirstProposal(candidate, Separators, k)
      ensures Refine(candidate, Separators, "") == Proposal(candidate, Separators[k]).value
    {
      RefineFirst(candidate, Separators, k);
    }
    if forall k :: 0 <= k < |Separators| ==> !Truthy(Proposal(candidate, Separators[k])) {
      RefineNoProposal(candidate, Separators);
    }
  }

  /** A title `a | b` whose prefix `a` is trimmed, non-empty and free of `|`
      is cut to `a` exactly when `a` is longer than ten UTF-16 code units;
      the rest of the title plays no part. */
  lemma PipeSuffix(a: string, b: string)
    requires a != [] && IsTrimmed(a) && '|' !in a
    ensures ChooseTitle(a + " | " + b) == if Utf16Length(a) > 10 then a else a + " | " + b
  {
    var c := a + " | " + b;
    assert c[|a|..|a| + 3] == " | ";
    assert c[..|a| + 1] == a + " ";
    FirstOccurrence(c, " | ", |a|, 1);
    assert c[..|a|] == a;
    TrimOfTrimmed(a);
    assert FirstProposal(c, Separators, 0);
    TitleRule(c);
  }

  /** A title wrapped in guillemets, `« p »`, with none of the other
      separators inside: the `«` proposal is empty, so the `»` one decides
      and keeps the opening guillemet. */
  lemma Guillemets(p: string)
    requires p != [] && IsTrimmed(p)
    requires '|' !in p && '_' !in p && '-' !in p && '«' !in p && '»' !in p
    ensures ChooseTitle("« " + p + " »") ==
              if Utf16Length("« " + p) > 10 then "« " + p else "« " + p + " »"
  {
    var c := "« " + p + " »";
    GuillemetsOpenEmpty(p);
    GuillemetsClose(p);
    assert FirstProposal(c, Separators, 4);
    TitleRule(c);
  }

  /** The first four separators propose nothing usable for `« p »`. */
  lemma GuillemetsOpenEmpty(p: string)
    requires '|' !in p && '_' !in p && '-' !in p
    ensures forall j :: 0 <= j < 4 ==> !Truthy(Proposal("« " + p + " »", Separators[j]))
  {
    forall j | 0 <= j < 4 ensures !Truthy(Proposal("« " + p + " »", Separators[j])) {
      if j < 3 {
        AbsentSeparator(p, Separators[j]);
      } else {
        OpenProposal(p);
      }
    }
  }

  /** A spaced separator whose middle character `p` lacks proposes nothing. */
  lemma AbsentSeparator(p: string, sep: string)
    requires |sep| == 3 && sep[1] !in p && sep[1] !in "« »"
    ensures Proposal("« " + p + " »", sep).None?
  {
    var c := "« " + p + " »";
    assert c == ['«', ' '] + p + [' ', '»'];
    AbsentPattern(c, sep, 1);
  }

  /** The text before the opening guillemet is empty. */
  lemma OpenProposal(p: string)
    ensures Proposal("« " + p + " »", "«") == Some("")
  {
    var c := "« " + p + " »";
    assert OccursAt(c, "«", 0);
    FirstOccurrence(c, "«", 0, 0);
    TrimOfTrimmed(c[..0]);
  }

  /** The closing guillemet proposes `« p`. */
  lemma GuillemetsClose(p: string)
    requires p != [] && IsTrimmed(p) && '»' !in p
    ensures Proposal("« " + p + " »", "»") == Some("« " + p)
  {
    var c := "« " + p + " »";
    var w := "« " + p;
    assert c[..|w| + 1] == w + " ";
    assert c[|w| + 1..|w| + 2] == "»";
    assert '»' !in c[..|w| + 1] by {
      assert c[..|w| + 1] == ['«', ' '] + p + [' '];
    }
    FirstOccurrence(c, "»", |w| + 1, 0);
    assert IsTrimmed(w);
    TrimTrailingBlank(w);
  }

  /** "Great Article | My Site" becomes "Great Article". */
  lemma ExampleSiteSuffixDropped(a: string)
    requires a == "Great Article"
    ensures ChooseTitle(a + " | My Site") == a
  {
    assert a + " | My Site" == a + " | " + "My Site";
    PipeSuffix(a, "My Site");
  }

  /** "A | B" is kept: the prefix "A" is too short. */
  lemma ExampleShortPrefixKept()
    ensures ChooseTitle("A | B") == "A | B"
  {
    assert "A | B" == "A" + " | " + "B";
    PipeSuffix("A", "B");
  }

  /** Two different separators both occur, yet the title is still refined:
      the early `return` exits only the callback, so the original is not
      restored. */
  lemma ExampleSecondSeparatorIgnored(a: string)
    requires a == "Some Long Headline - Site"
    ensures Proposal(a + " | Brand", " | ").Some? && Proposal(a + " | Brand", " - ").Some?
    ensures ChooseTitle(a + " | Brand") == a != a + " | Brand"
  {
    var c := a + " | Brand";
    assert c == a + " | " + "Brand";
    assert OccursAt(c, " | ", |a|);
    assert c[18..21] == a[18..21] == " - ";
    assert OccursAt(c, " - ", 18);
    PipeSuffix(a, "Brand");
  }

  /** "« Real Headline Here »" loses only its closing guillemet. */
  lemma ExampleEmptyPrefixReplaced(p: string)
    requires p == "Real Headline Here"
    ensures ChooseTitle("« " + p + " »") == "« " + p
  {
    Guillemets(p);
  }
}

=== FILE: wrappers.dfy ===
/** Optional and fallible values, used wherever the original code returns
    `null`/`undefined` or reports an error through a callback. */
module Wrappers {

  datatype Option<+T> = None | Some(value: T)

  datatype Result<+T, +E> = Success(value: T) | Failure(error: E)

  /** JavaScript truthiness of a value that is either nullish or a string:
      `undefined`, `null` and `""` are all falsy. */
  predicate Truthy(o: Option<string>) {
    o.Some? && o.value != ""
  }

  /** The `a || b` operator on nullish-or-string operands. */
  function Or(a: Option<string>, b: Option<string>): (r: Option<string>)
    ensures Truthy(a) ==> r == a
    ensures !Truthy(a) ==> r == b
  {
    if Truthy(a) then a else b
  }
}
